=== FILE: README.md ===
# releasehealth stats engine and bot logic, in Dafny

This project models the core of *releasehealth*, an IRC bot that watches
Bugzilla bug counts for the Firefox release trains. It has two parts.

- **The stats engine** (`Stats` in `releasehealth/stats.py`).
  - It keeps the dashboard configuration ("bzconfig") as one Redis hash field per top-level JSON key.
  - It keeps an in-memory parsed copy, filled lazily and dropped after every successful refresh.
  - On each cycle it polls one Bugzilla count per (version, query) pair and pushes every changed count onto that pair's Redis list.
  - It reports each change to a callback.
- **The bot's decision logic** (`Bot` in `releasehealth/bot.py`):
  - when the poll loop refreshes the configuration;
  - what message a change produces and which channels receive it;
  - which public messages are commands;
  - how `do_command` answers a command.

Modules, one file each:

| file | module | models |
|---|---|---|
| `wrappers.dfy` | `Wrappers` | `Option`, and `Response` (a connection error, or an HTTP status with a body) |
| `text.dfy` | `Text` | The Python string operations the code relies on: `str(int)`, `startswith`, `replace`, `split()`, `split(':')[0]`, `strip()`, `string.whitespace`, `string.punctuation`, and `list.sort()` on strings |
| `history.dfy` | `History` | Redis lists: `LPUSH`, `LLEN`, `LINDEX 0` |
| `config.dfy` | `Config` | `refresh_bzconfig` and the `bzconfig` property |
| `engine.dfy` | `Engine` | History keys, request URLs, the polling loops of `refresh_stats`, and `refresh_stats` as a whole |
| `bot.dfy` | `Bot` | `poll_stats_loop` (one iteration), `stats_changed`, `on_pubmsg`, `do_command` |

Everything is a pure function of explicit state:

- Redis is a map from key to list: `History.Store` for the lists and `Config.Hash` for the configuration hash.
- The configuration GET becomes a `Response<Option<Doc>>`. `Doc` is the decoded document as a sequence of (key, value) pairs in iteration order. The body is `None` when it is not a JSON object. A request that raises anything other than `ConnectionError`, in `requests.get` or while reading the reply, is modelled as `Http(200, None)`. Examples are `ChunkedEncodingError`, `TooManyRedirects`, and `MissingSchema`/`InvalidURL` for a bad `BZCONFIG_JSON_URL`. These escape exactly as a malformed body does.
- Each Bugzilla GET becomes a call of a `Fetch` function from URL to `Response<Option<int>>`. The `Option` is `None` when the body has no usable `bug_count`. A request that raises anything other than `ConnectionError` is modelled as `Http(200, None)` too, `MissingSchema`/`InvalidURL` for a bad `BUGZILLA_REST_URL` among them. Only `ConnectionError` is caught (`stats.py:49`, `stats.py:83`).
- The polling loop sees one response per (version, query) pair: `Engine.AskBugzilla` answers a pair with the `Fetch` of the URL `Engine.BuildUrl` builds for it.
- `time.time()` becomes a `now: real` parameter.
- A cycle returns the `stats_callback` calls it would make as a sequence of `Event`s.
- It returns the `version_callback` calls as `VersionNotice`s.
- Whether an exception escaped is a `raised`/`stopped` flag, or a `None` result.

## Error paths and timing worth knowing

The model follows the code on each of these paths. Several of them end the bot's polling thread, because only `ConnectionError` is caught.

- `poll_stats_loop` sets `last_bzconfig_refresh = now` even when the refresh failed (`bot.py:130-132`). So a failed refresh is retried only after a full period, not on the next tick (`Bot.RefreshClockRestarts`).
- A 200 reply without a usable `bug_count` raises out of `refresh_stats` (`stats.py:94`). This ends that cycle, and the bot's polling thread with it. Pairs already handled in the cycle keep their pushes (`Engine.PollConcat`). The tick then reports the thread stopped, with that cycle's history and callbacks (`Bot.PollTick`).
- A configuration with a missing or ill-shaped `versions`, `bugQueries` or `BUGZILLA_REST_URL` raises before any request is made. It raises only when the loops actually reach that key (`stats.py:69-76`, `Engine.Targets`).
- `refresh_bzconfig` with a `version_callback` set raises from `json.loads(None)` when no `versions` field is stored yet (`stats.py:57-59`). In that case the keys written before `versions` stay written, nothing after it is written, and the in-memory copy is not cleared (`Config.StoreDocRaises`, `Config.RefreshRaisedKeepsWrites`). The bot never sets a version callback.
- A 200 configuration reply whose body is not a JSON object raises out of `refresh_bzconfig` at `r.json()` or `iteritems()` (`stats.py:55-56`), before anything is written. In `poll_stats_loop` this escapes before `last_bzconfig_refresh = now` and before `refresh_stats` (`bot.py:130-134`), so it ends the polling thread (`Bot.PollTick`). Read lazily, it raises out of `refresh_stats` (`Config.LoadConfig`).
- `on_pubmsg` raises `IndexError` when a message is exactly the nick (`bot.py:85`, `Bot.PubMsg.NickOnly`).
- `do_command` raises `IndexError` on an empty or blank command line (`bot.py:99`, `Bot.DoCommand` returns `None`).

## Model

| member | source | states |
|---|---|---|
| Text.IntToStringRoundTrip | releasehealth/stats.py:93 | The decimal text `str()` writes for a version number reads back as the same integer, negative numbers included. Nothing is lost when a number goes into a key or URL. |
| Engine.MetricKeyRoundTrip | releasehealth/stats.py:93 | A key `'%s:%s' % (vernum, query['id'])` splits at its first ':' back into the version number and the query id, whatever characters the id holds. |
| Engine.MetricKeyInjective | releasehealth/stats.py:93 | Two (version number, query id) pairs share a history list if and only if they are the same pair. |
| Engine.BuildUrlSubstitutes | releasehealth/stats.py:76-79 | The URL is the REST base, then the template, then `&count_only=1`. The two chained `replace` calls on the template equal one left-to-right pass that puts the version number for each `{RELEASE}` and the previous number for each `{OLDERRELEASE}`. |
| Engine.OlderReleaseSurvives | releasehealth/stats.py:77-78 | Replacing `{RELEASE}` by a number neither creates nor hides an `{OLDERRELEASE}` at the front of the text, so the second `replace` sees every placeholder the template had. |
| Text.ReplaceAbsent | releasehealth/stats.py:77-78 | `replace` of a non-empty pattern that does not occur returns the string unchanged. |
| History.Push | releasehealth/stats.py:104-106 | `LPUSH` puts the new observation, count and timestamp, on top of the old list, so it becomes the latest count. Every other key's list is unchanged. |
| History.PushAllStacks | releasehealth/stats.py:104-106 | Several pushes to a key stack up newest first on top of the old list. |
| History.PushAllFrame | releasehealth/stats.py:104-106 | Pushes to one key never change another key's list. |
| History.LatestAfterPushes | releasehealth/stats.py:95-106 | After a run of pushes to a key, the previous count read for it is the last one pushed. |
| Engine.VisitCases | releasehealth/stats.py:81-110 | One pair, case by case: a connection error or a non-200 status changes nothing; a 200 without a count raises; a count equal to the list's head changes nothing; any other count is pushed onto that pair's list stamped `now`, and reported with the previous value when a stats callback is set. |
| Engine.VisitFrame | releasehealth/stats.py:93-106 | Handling one pair touches no other key's list. |
| Engine.PollGrows | releasehealth/stats.py:104-106 | A cycle only ever adds observations stamped `now` to the front of a list. It never edits or removes a recorded one. |
| Engine.PollFrame | releasehealth/stats.py:69-106 | The list of a key that no polled pair maps to is unchanged by the cycle. |
| Engine.PollEventsAreChanges | releasehealth/stats.py:101-110 | Every callback reports a count that differs from the previous one. No callback is made when no stats callback is set. |
| Engine.PollConcat | releasehealth/stats.py:69-110 | Polling the pairs `a + b` is polling `a`, then `b` from the resulting history, with `a`'s callbacks first. If `a` raised, `b` is never polled. |
| Engine.PollSkipsFailedPair | releasehealth/stats.py:81-91 | A pair whose request fails is skipped with `continue`. The cycle equals the cycle over the other pairs alone. |
| Engine.PollIdempotent | releasehealth/stats.py:69-110 | When pairs have distinct keys, a second cycle at any later time that gets the same counts pushes nothing, reports nothing, and raises exactly when the first did. |
| Engine.PollRecordsFetched | releasehealth/stats.py:93-106 | After a cycle that did not raise, take a pair whose request succeeded and no later pair shares its key. Its reply has a count, and the pair's latest recorded count equals that count. |
| Engine.CrossProductOrder | releasehealth/stats.py:69-70 | The nested loops visit `len(versions) * len(queries)` pairs in version-major order: visit number `i * len(queries) + j` is version `i` with query `j`. |
| Engine.CrossProductMembers | releasehealth/stats.py:69-70 | A visited pair is built from one of the versions and one of the queries. |
| Engine.CrossProductDistinctKeys | releasehealth/stats.py:69-93 | Distinct version numbers and distinct query ids give every visited pair its own history key. |
| Engine.TargetsDistinct | releasehealth/stats.py:69-93 | A configuration with unique version numbers and query ids yields pairs with distinct keys. |
| Engine.RefreshStats | releasehealth/stats.py:68-110 | The configuration is read through the lazy `bzconfig` property. The resulting state and version notices are the engine's. If that read raises, the cycle raises and the history is untouched. If the configuration lacks a key the loops need, or the key has the wrong shape, the cycle raises before any request. Otherwise the cycle is the poll of the configuration's (version, query) pairs, each asked at the URL built from the configured REST base. |
| Engine.RefreshStatsIdempotent | releasehealth/stats.py:68-110 | Assume a stored configuration, a coherent in-memory copy and distinct keys. A second `refresh_stats` with the same counts reads the same configuration, pushes nothing and reports nothing. |
| Config.StoreDocMerges | releasehealth/stats.py:56-62 | Unless it raises, storing the fetched document overwrites exactly the document's keys, with the last value per key, and keeps every other stored field. |
| Config.StoreDocRaises | releasehealth/stats.py:57-59 | Storing raises exactly when a version callback is set, the document has `versions`, and no `versions` field is stored yet. |
| Config.StoreDocQuiet | releasehealth/stats.py:57-61 | A document without `versions` produces no version notice and never raises. |
| Config.StoreDocNotices | releasehealth/stats.py:57-61 | Take a version callback set, a stored `versions` field, and a document with no repeated key. Then exactly one notice is produced when the new value differs from the value stored before the refresh, and none otherwise. The notice carries (stored value, new value). |
| Config.RefreshConfig | releasehealth/stats.py:47-66 | A connection error or non-200 status changes nothing. A 200 whose body is not a JSON object raises and changes nothing. A 200 with a document merges it into the hash and drops the in-memory copy, unless it raised. A raise leaves the in-memory copy as it was and makes no notice. Without a version callback there is no notice, and a raise happens exactly for a body that is not an object. A coherent in-memory copy stays coherent unless the refresh raised. |
| Config.StoreDocRaisedPrefix | releasehealth/stats.py:56-62 | When the `versions` comparison raises, the hash holds exactly the old fields merged with the keys the document lists before `versions`. |
| Config.RefreshRaisedKeepsWrites | releasehealth/stats.py:54-63 | A refresh that raises at `versions` keeps the writes made before it and leaves the in-memory copy uncleared. |
| Config.LoadConfig | releasehealth/stats.py:29-39 | A usable (non-empty) in-memory copy is returned as is. Otherwise the hash is refreshed first only when it is empty, then parsed, cached and returned. When the hash was empty: a document that stores without raising is the result; a failed request gives the empty configuration; a body that is not an object raises; the notices are the refresh's. With a coherent copy, the result is the stored hash. The read raises exactly when that refresh raises. The state is then exactly what the refresh left: the writes made before the raise stay, and the in-memory copy is unchanged. |
| Config.LoadExistingHash | releasehealth/stats.py:32-39 | Once the hash exists and the in-memory copy is coherent, a read never refreshes and returns the stored hash. |
| Config.RefreshThenLoad | releasehealth/stats.py:63 | After a successful, non-raising refresh with a non-empty document, the next read of the configuration returns the stored hash merged with that document, whatever that read's own response would be. |
| Bot.PollTick | releasehealth/bot.py:123-134 | One loop iteration sets `last_bzconfig_refresh` to `now` exactly when a refresh was due and did not raise, and keeps it otherwise. A due refresh whose reply is not a JSON object stops the thread with the bot state unchanged and no callback. Otherwise the tick is `refresh_stats` on the possibly refreshed state: it stops exactly when that raises, and keeps the cycle's pushes, callbacks and configuration state. |
| Bot.DueTickRefreshes | releasehealth/bot.py:126-134 | A due refresh with a non-empty document runs before `refresh_stats`. The tick ends with the merged hash stored and cached, and its callbacks are those of polling that hash's targets. |
| Bot.DefaultPeriodIsTenMinutes | releasehealth/config.py:22 | With the default period, a refresh is not due 599 seconds after the last one and is due after 600. |
| Bot.NoRefreshWhenNotDue | releasehealth/bot.py:126-132 | When no refresh is due, the tick does not depend on what the configuration request would have answered. |
| Bot.RefreshClockRestarts | releasehealth/bot.py:126-132 | After a tick that refreshed at a non-zero `now` without raising, whether or not the request succeeded, the next refresh is due exactly when `period` seconds have passed since `now`. |
| Bot.FailedRefreshKeepsConfig | releasehealth/bot.py:130-134 | After a failed timed refresh, the tick's configuration, history and callbacks equal those of running `refresh_stats` on the old state. The tick still sets `last_bzconfig_refresh` to `now`. |
| Bot.ChangeMessage | releasehealth/bot.py:141-143 | A first count of a metric is announced with `New metric: `. |
| Bot.ChangeMessageEnds | releasehealth/bot.py:140-147 | Both messages end with the new count. A change of a known metric ends with the action word, `from` the old count, `to` the new count and '.'. Only that form ends with '.', so the two cannot be confused. |
| Bot.ActionMatchesDirection | releasehealth/bot.py:140-147 | For every change a cycle reports, the message ends with the action word, the old and the new count. That word is "increased" exactly when the count went up and "decreased" exactly when it went down. |
| Bot.Announce | releasehealth/bot.py:148-150 | The message goes to every configured channel, in order. Each is addressed by its name, the part of the entry before the first ':'. |
| Text.BeforeFirst | releasehealth/bot.py:149 | `split(':')[0]` is a prefix of the entry that contains no ':' and is followed by ':' unless it is the whole entry. |
| Bot.ExtractCommand | releasehealth/bot.py:80-87 | A message is a command exactly when it starts with the nick, followed by a whitespace or punctuation character. The command line is the rest, stripped. A message equal to the nick is the `IndexError` case. |
| Bot.ExtractCommandRoundTrip | releasehealth/bot.py:80-88 | The nick, one separator and a command line without surrounding whitespace yields exactly that command line. |
| Text.Strip | releasehealth/bot.py:87 | `strip()` returns a slice of the input that has only whitespace around it and neither starts nor ends with whitespace. |
| Text.StripTrimmed | releasehealth/bot.py:87 | A string that neither starts nor ends with whitespace strips to itself. |
| Text.Split | releasehealth/bot.py:98 | `split()` yields non-empty words without whitespace. |
| Text.SplitLayout | releasehealth/bot.py:98 | Every string is its `split()` words interleaved with whitespace gaps: the gaps between words are non-empty, and the first gap is the string's leading whitespace. |
| Text.SplitInterleave | releasehealth/bot.py:98 | Words without whitespace, interleaved with any whitespace gaps that are non-empty between words, split back into exactly those words. |
| Text.SplitJoinWords | releasehealth/bot.py:98 | Splitting words joined by single spaces gives the words back. |
| Bot.ParseCommand | releasehealth/bot.py:98-105 | The first word is the command; a blank line is the `IndexError` case. `stats` keeps at most its first two arguments, in order. Any other word is an unknown command under that name. |
| Bot.ParseStatsRoundTrip | releasehealth/bot.py:98-105 | `stats` followed by space-separated words passes on its first two words. |
| Bot.FormatRows | releasehealth/bot.py:107-114 | One reply line per stats row, formatted as `'%s (%s) %s: %s'`. |
| Text.Sort | releasehealth/bot.py:115 | `list.sort()` on strings yields a permutation of its input that is in ascending code-point order. |
| Bot.Respond | releasehealth/bot.py:102-121 | An unknown command gets the single refusal line. `stats` gets its formatted rows, sorted and as a permutation of the rows. `stats` with no rows gets `not found`. A reply is never empty. |
| Bot.DoCommand | releasehealth/bot.py:97-121 | A line raises exactly when it is blank; otherwise the reply is never empty. |
| Bot.DoCommandDispatch | releasehealth/bot.py:97-121 | `get_stats` is consulted only for `stats`, and with its first two arguments. Every other command word gets the refusal naming it. |

## Left out

- IRC plumbing is not modelled: connecting, joining channels, `on_welcome`, `on_privmsg`, `on_disconnect`, and the reactor that delivers `stats_callback` calls.
- Threads are not modelled. Each `poll_stats_loop` iteration is modelled as one `Bot.PollTick`, and `time.sleep` is left out.
- Exceptions from `requests.get` other than `ConnectionError` have no case of their own. They are modelled as a 200 reply with a `None` body, which raises at the same point, so which exception escapes is not recorded.
- HTTP and JSON are not modelled. Requests become `Response` values. The configuration document arrives already decoded. `json.dumps`/`json.loads` round trips through Redis are taken as identity on the stored values.
- Redis connection setup is not modelled. Neither is `redis.from_url` nor Redis failures.
- `time.time()` is read once per poll cycle. `Engine.Visit` stamps every push of a cycle with the same `now`, where the code reads the clock again at each push.
- `get_stats`, `version_names` and `query_names` are not modelled. `do_command` receives the rows they would produce.
- Environment loading in `releasehealth/config.py` is not modelled. The refresh period becomes a parameter, whose default value is `Bot.DefaultConfigRefreshPeriod`.
- `releasehealth-bot.py` and the test server are not part of this model.
- Logging is not modelled.
- The inner fields of versions and queries are typed (`number`, `title`, `id`, `url`). A missing or ill-typed inner field (`KeyError`/`TypeError` at `stats.py:71-77`) is not modelled.
- `Engine.Targets`: a `bugQueries` that is some other iterable (a string, an object) is treated as an error, where Python would iterate over it.
- `Config.Value`: a JSON object of versions is kept in its iteration order. `Engine.PollIdempotent` and `Engine.RefreshStatsIdempotent` need distinct keys, which unique version numbers and query ids provide (`Engine.TargetsDistinct`).
- `Config.SameValue`: compares two version tables as dictionaries, so an entry order that differs does not count as a change. Other values are compared structurally.
- `Text.IsWhitespace`: Python 2 byte-string whitespace only (space, tab, LF, VT, FF, CR). Unicode whitespace is not modelled.
- `Bot.ChangeMessage`: `%d` of a non-integer count is not modelled, because counts are integers.

=== FILE: bot.dfy ===
/** The decision logic of the IRC bot around the stats engine: when to
    refresh the configuration, what to say about a change and where, which
    public messages are commands, and how a command is answered. */
module Bot {
  import opened Wrappers
  import opened Text
  import opened History
  import opened Config
  import opened Engine

  /** `BZCONFIG_REFRESH_PERIOD` when the environment does not set it: ten
      minutes, in seconds. */
  const DefaultConfigRefreshPeriod: int := 10 * 60

  // ---------------------------------------------------------------------
  // poll_stats_loop

  /** The bot's stats engine state and `last_bzconfig_refresh`. */
  datatype BotState = BotState(config: ConfigState, history: Store, lastConfigRefresh: Option<real>)

  /** `not last or now - last >= period`: a never-set or zero timestamp is
      falsy in Python, so it always asks for a refresh. */
  predicate ConfigRefreshDue(last: Option<real>, now: real, period: int) {
    last.None? || last.value == 0.0 || now - last.value >= period as real
  }

  /** One pass of the loop, up to its sleep. `stopped` is an exception out
      of `refresh_bzconfig` or `refresh_stats`, which ends the polling
      thread. */
  datatype Tick = Tick(bot: BotState, events: seq<Event>, stopped: bool)

  /** One iteration of `poll_stats_loop` at time `now`. The bot's engine has
      a stats callback and no version callback. `configResp` answers the
      timed refresh, `lazy` the refresh the configuration read may trigger,
      and `fetch` the Bugzilla queries. */
  function PollTick(b: BotState, now: real, period: int, configResp: Response<Option<Doc>>,
                    lazy: Response<Option<Doc>>, fetch: Fetch): (r: Tick)
    ensures var due := ConfigRefreshDue(b.lastConfigRefresh, now, period);
            var broken := configResp.IsOk() && configResp.body.None?;
            r.bot.lastConfigRefresh == if due && !broken then Some(now) else b.lastConfigRefresh
    ensures ConfigRefreshDue(b.lastConfigRefresh, now, period) && configResp.IsOk() && configResp.body.None?
            ==> r == Tick(b, [], true)
    ensures var due := ConfigRefreshDue(b.lastConfigRefresh, now, period);
            var broken := configResp.IsOk() && configResp.body.None?;
            var config := if due then RefreshConfig(b.config, configResp, false).state else b.config;
            var run := RefreshStats(config, b.history, lazy, fetch, now, true, false);
            !(due && broken)
            ==> && r.stopped == run.cycle.raised
                && r.bot.config == run.config
                && r.bot.history == run.cycle.history
                && r.events == run.cycle.events
  {
    var due := ConfigRefreshDue(b.lastConfigRefresh, now, period);
    var refreshed := if due then RefreshConfig(b.config, configResp, false) else Refresh(b.config, [], false);
    if refreshed.raised then Tick(BotState(refreshed.state, b.history, b.lastConfigRefresh), [], true)
    else
      var last := if due then Some(now) else b.lastConfigRefresh;
      var run := RefreshStats(refreshed.state, b.history, lazy, fetch, now, true, false);
      Tick(BotState(run.config, run.cycle.history, last), run.cycle.events, run.cycle.raised)
  }

  /** When the refresh is not due, the timed request is never made: the
      tick is the same whatever its response would have been. */
  lemma NoRefreshWhenNotDue(b: BotState, now: real, period: int, resp1: Response<Option<Doc>>,
                            resp2: Response<Option<Doc>>, lazy: Response<Option<Doc>>, fetch: Fetch)
    requires !ConfigRefreshDue(b.lastConfigRefresh, now, period)
    ensures PollTick(b, now, period, resp1, lazy, fetch) == PollTick(b, now, period, resp2, lazy, fetch)
  {
  }

  /** A tick whose refresh returns restarts the refresh clock at `now`, even
      when the refresh request failed: the next refresh is due exactly when
      `period` seconds have passed (for a positive clock reading). */
  lemma RefreshClockRestarts(b: BotState, now: real, period: int, configResp: Response<Option<Doc>>,
                             lazy: Response<Option<Doc>>, fetch: Fetch, t: real)
    requires now != 0.0
    requires ConfigRefreshDue(b.lastConfigRefresh, now, period)
    requires !(configResp.IsOk() && configResp.body.None?)
    ensures var r := PollTick(b, now, period, configResp, lazy, fetch);
            ConfigRefreshDue(r.bot.lastConfigRefresh, t, period) <==> t - now >= period as real
  {
  }

  /** With the default period, a refresh made at a positive time `last` is
      not due 599 seconds later and is due 600 seconds later. */
  lemma DefaultPeriodIsTenMinutes(last: real)
    requires last != 0.0
    ensures !ConfigRefreshDue(Some(last), last + 599.0, DefaultConfigRefreshPeriod)
    ensures ConfigRefreshDue(Some(last), last + 600.0, DefaultConfigRefreshPeriod)
  {
  }

  /** A failed timed refresh leaves the stored configuration as it was: the
      tick behaves as if only `refresh_stats` had run. */
  lemma FailedRefreshKeepsConfig(b: BotState, now: real, period: int, configResp: Response<Option<Doc>>,
                                 lazy: Response<Option<Doc>>, fetch: Fetch)
    requires !configResp.IsOk()
    ensures var r := PollTick(b, now, period, configResp, lazy, fetch);
            var run := RefreshStats(b.config, b.history, lazy, fetch, now, true, false);
            r.bot.config == run.config && r.bot.history == run.cycle.history && r.events == run.cycle.events
  {
  }

  /** A due timed refresh that receives a non-empty document runs before
      `refresh_stats`: the tick stores the merged hash, reads it back as the
      in-memory copy (whatever `lazy` is), and polls the targets it lists. */
  lemma DueTickRefreshes(b: BotState, now: real, period: int, configResp: Response<Option<Doc>>,
                         lazy: Response<Option<Doc>>, fetch: Fetch)
    requires ConfigRefreshDue(b.lastConfigRefresh, now, period)
    requires configResp.IsOk() && configResp.body.Some? && |configResp.body.value| > 0
    ensures var r := PollTick(b, now, period, configResp, lazy, fetch);
            var merged := b.config.stored + ToMap(configResp.body.value);
            && r.bot.config == ConfigState(merged, Some(merged))
            && r.events == match Targets(merged)
                           case None => []
                           case Some(t) => Poll(b.history, t.0, AskBugzilla(t.1, fetch), now, true).events
  {
    RefreshedState(b.config, configResp, false);
    LoadExistingHash(RefreshConfig(b.config, configResp, false).state, lazy, false);
  }

  // ---------------------------------------------------------------------
  // stats_changed

  function Action(previous: int, current: int): string {
    if previous < current then "increased" else "decreased"
  }

  predicate EndsWith(s: string, suffix: string) {
    |suffix| <= |s| && s[|s| - |suffix|..] == suffix
  }

  lemma EndsWithTwo(x: string, b: string, c: string)
    ensures EndsWith(x + b + c, b + c)
  {
    assert x + b + c == x + (b + c);
    assert (x + (b + c))[|x|..] == b + c;
  }

  lemma EndsWithThree(x: string, b: string, c: string, d: string)
    ensures EndsWith(x + b + c + d, b + c + d)
  {
    assert x + b + c + d == x + (b + c + d);
    assert (x + (b + c + d))[|x|..] == b + c + d;
  }

  lemma EndsWithConcat(x: string, b: string)
    ensures EndsWith(x + b, b)
  {
    assert (x + b)[|x|..] == b;
  }

  lemma EndsWithTransitive(s: string, b: string, c: string)
    requires EndsWith(s, b) && EndsWith(b, c)
    ensures EndsWith(s, c)
  {
    assert s[|s| - |c|..] == s[|s| - |b|..][|b| - |c|..];
  }

  lemma LastOfSuffix(s: string, suffix: string)
    requires |suffix| > 0 && EndsWith(s, suffix)
    ensures |s| > 0 && s[|s| - 1] == suffix[|suffix| - 1]
  {
    assert s[|s| - |suffix|..][|suffix| - 1] == s[|s| - 1];
  }

  /** The text `stats_changed` sends for one callback. */
  function ChangeMessage(e: Event): (msg: string)
    ensures e.previous.None? ==> StartsWith(msg, "New metric: ")
  {
    match e.previous
    case None =>
      "New metric: " + e.versionTitle + " " + IntToString(e.vernum) + " " + e.queryTitle + ": " + IntToString(e.current)
    case Some(before) =>
      e.versionTitle + " " + IntToString(e.vernum) + " " + e.queryTitle
      + (" " + Action(before, e.current) + " from " + IntToString(before) + " to " + IntToString(e.current) + ".")
  }

  /** Both forms of the message end with the new count, and only a change
      of a known metric ends with '.', since a number's text never does. A
      change says which way the count moved, from what, to what. */
  lemma ChangeMessageEnds(e: Event)
    ensures var msg := ChangeMessage(e);
            && |msg| > 0
            && (e.previous.None? ==> EndsWith(msg, ": " + IntToString(e.current)))
            && (e.previous.Some? ==> EndsWith(msg, " to " + IntToString(e.current) + "."))
            && (e.previous.Some? ==>
                  EndsWith(msg, " " + Action(e.previous.value, e.current) + " from " + IntToString(e.previous.value)
                                + " to " + IntToString(e.current) + "."))
            && (msg[|msg| - 1] == '.' <==> e.previous.Some?)
  {
    var n := IntToString(e.current);
    match e.previous
    case None =>
      var head := "New metric: " + e.versionTitle + " " + IntToString(e.vernum) + " " + e.queryTitle;
      EndsWithTwo(head, ": ", n);
      LastOfSuffix(ChangeMessage(e), ": " + n);
      assert (": " + n)[|": " + n| - 1] == n[|n| - 1];
    case Some(before) =>
      var head := e.versionTitle + " " + IntToString(e.vernum) + " " + e.queryTitle;
      var change := " " + Action(before, e.current) + " from " + IntToString(before);
      EndsWithConcat(head, change + " to " + n + ".");
      EndsWithThree(change, " to ", n, ".");
      EndsWithTransitive(ChangeMessage(e), change + " to " + n + ".", " to " + n + ".");
      LastOfSuffix(ChangeMessage(e), " to " + n + ".");
  }

  /** For every callback a cycle fires about a known metric, the message
      sent names the direction, "increased" exactly when the count went up
      and "decreased" exactly when it went down (equal counts are never
      reported), followed by the old and the new count. */
  lemma ActionMatchesDirection(h: Store, ps: seq<Pair>, ask: Ask, now: real, e: Event)
    requires e in Poll(h, ps, ask, now, true).events && e.previous.Some?
    ensures var word := Action(e.previous.value, e.current);
            && EndsWith(ChangeMessage(e), " " + word + " from " + IntToString(e.previous.value)
                                          + " to " + IntToString(e.current) + ".")
            && (word == "increased" <==> e.previous.value < e.current)
            && (word == "decreased" <==> e.previous.value > e.current)
  {
    PollEventsAreChanges(h, ps, ask, now, true);
    ChangeMessageEnds(e);
  }

  /** `channel.split(':')[0]`: the channel name without its `:key` suffix. */
  function ChannelName(channel: string): string {
    BeforeFirst(channel, ':')
  }

  /** The `privmsg` calls `stats_changed` makes: the message, to every
      configured channel in order, addressed by name without its key. */
  function Announce(e: Event, channels: seq<string>): (sent: seq<(string, string)>)
    ensures |sent| == |channels|
    ensures forall i :: 0 <= i < |sent| ==>
              && sent[i].1 == ChangeMessage(e)
              && StartsWith(channels[i], sent[i].0)
              && ':' !in sent[i].0
              && (|sent[i].0| < |channels[i]| ==> channels[i][|sent[i].0|] == ':')
  {
    if |channels| == 0 then []
    else [(ChannelName(channels[0]), ChangeMessage(e))] + Announce(e, channels[1..])
  }

  // ---------------------------------------------------------------------
  // on_pubmsg

  /** How a public message is read: not addressed to the bot, addressed
      with a command line, or exactly the nick, where reading the character
      after the nick raises `IndexError`. */
  datatype PubMsg = NotForUs | ForUs(command: string) | NickOnly

  function ExtractCommand(msg: string, nick: string): (r: PubMsg)
    ensures r.NickOnly? <==> msg == nick
    ensures r.ForUs? <==> StartsWith(msg, nick) && |msg| > |nick|
                          && (IsWhitespace(msg[|nick|]) || IsPunctuation(msg[|nick|]))
    ensures r.ForUs? ==> r.command == Strip(msg[|nick| + 1..])
  {
    if !StartsWith(msg, nick) then NotForUs
    else
      var rest := msg[|nick|..];
      if |rest| == 0 then NickOnly
      else if IsWhitespace(rest[0]) || IsPunctuation(rest[0]) then ForUs(Strip(rest[1..]))
      else NotForUs
  }

  /** Addressing the bot by nick, one separator and a command line with no
      surrounding whitespace hands exactly that command line on. */
  lemma ExtractCommandRoundTrip(nick: string, sep: char, command: string)
    requires IsWhitespace(sep) || IsPunctuation(sep)
    requires |command| > 0 ==> !IsWhitespace(command[0]) && !IsWhitespace(command[|command| - 1])
    ensures ExtractCommand(nick + [sep] + command, nick) == ForUs(command)
  {
    var msg := nick + [sep] + command;
    assert msg[..|nick|] == nick;
    assert msg[|nick|] == sep;
    assert msg[|nick| + 1..] == command;
    StripTrimmed(command);
  }

  // ---------------------------------------------------------------------
  // do_command

  /** One entry of the `get_stats` result with the names `version_names`
      and `query_names` give it. */
  datatype StatRow = StatRow(versionName: string, vernum: int, queryName: string, value: int)

  datatype Command = StatsCommand(args: seq<string>) | UnknownCommand(name: string)

  /** The first word is the command; `stats` keeps at most two arguments.
      `None` is the `IndexError` an empty or all-blank line raises. */
  function ParseCommand(line: string): (r: Option<Command>)
    ensures r.None? <==> |Split(line)| == 0
    ensures r.Some? ==> (r.value.StatsCommand? <==> Split(line)[0] == "stats")
    ensures r.Some? && r.value.UnknownCommand? ==> r.value.name == Split(line)[0]
    ensures r.Some? && r.value.StatsCommand? ==>
              && |r.value.args| == (if |Split(line)| - 1 < 2 then |Split(line)| - 1 else 2)
              && forall i :: 0 <= i < |r.value.args| ==> r.value.args[i] == Split(line)[i + 1]
  {
    var parts := Split(line);
    if |parts| == 0 then None
    else if parts[0] == "stats" then
      var args := parts[1..];
      Some(StatsCommand(if |args| <= 2 then args else args[..2]))
    else Some(UnknownCommand(parts[0]))
  }

  /** `stats` followed by words joined with single spaces passes the first
      two words on. */
  lemma ParseStatsRoundTrip(args: seq<string>)
    requires forall k :: 0 <= k < |args| ==> |args[k]| > 0 && NoWhitespace(args[k])
    ensures ParseCommand(JoinWords(["stats"] + args))
         == Some(StatsCommand(if |args| <= 2 then args else args[..2]))
  {
    var words := ["stats"] + args;
    assert forall k :: 0 <= k < |words| ==> |words[k]| > 0 && NoWhitespace(words[k]);
    SplitJoinWords(words);
    assert words[1..] == args;
  }

  /** One line of the `stats` reply: `'%s (%s) %s: %s'`. */
  function FormatRow(row: StatRow): string {
    row.versionName + " (" + IntToString(row.vernum) + ") " + row.queryName + ": " + IntToString(row.value)
  }

  function FormatRows(rows: seq<StatRow>): (lines: seq<string>)
    ensures |lines| == |rows| && forall i :: 0 <= i < |rows| ==> lines[i] == FormatRow(rows[i])
  {
    if |rows| == 0 then [] else [FormatRow(rows[0])] + FormatRows(rows[1..])
  }

  /** The reply to a parsed command, given the rows `get_stats` returned. */
  function Respond(cmd: Command, rows: seq<StatRow>): (lines: seq<string>)
    ensures cmd.UnknownCommand? ==> lines == ["unknown command \"" + cmd.name + "\""]
    ensures cmd.StatsCommand? ==> |lines| > 0 && Sorted(lines)
    ensures cmd.StatsCommand? && |rows| > 0 ==> multiset(lines) == multiset(FormatRows(rows))
    ensures cmd.StatsCommand? && |rows| == 0 ==> lines == ["not found"]
  {
    match cmd
    case UnknownCommand(name) => ["unknown command \"" + name + "\""]
    case StatsCommand(_) =>
      var lines := Sort(FormatRows(rows));
      if |lines| == 0 then ["not found"] else lines
  }

  /** `Bot.do_command`, with `get_stats` as a parameter: `None` is the
      `IndexError` of a blank line. */
  function DoCommand(line: string, getStats: seq<string> -> seq<StatRow>): (r: Option<seq<string>>)
    ensures r.None? <==> |Split(line)| == 0
    ensures r.Some? ==> |r.value| > 0
  {
    match ParseCommand(line)
    case None => None
    case Some(cmd) =>
      Some(Respond(cmd, if cmd.StatsCommand? then getStats(cmd.args) else []))
  }

  /** `get_stats` is asked only for `stats`, with the first two arguments,
      and every other command word gets the one-line refusal. */
  lemma DoCommandDispatch(line: string, getStats: seq<string> -> seq<StatRow>)
    requires |Split(line)| > 0
    ensures var words := Split(line);
            var args := words[1..];
            words[0] != "stats" ==> DoCommand(line, getStats) == Some(["unknown command \"" + words[0] + "\""])
    ensures var words := Split(line);
            var args := words[1..];
            words[0] == "stats" ==>
              DoCommand(line, getStats) == Some(Respond(StatsCommand(args[..if |args| < 2 then |args| else 2]),
                                                        getStats(args[..if |args| < 2 then |args| else 2])))
  {
    var words := Split(line);
    var args := words[1..];
    assert args[..|args|] == args;
  }
}

=== FILE: config.dfy ===
/** The dashboard configuration ("bzconfig") as the stats engine keeps it:
    one Redis hash field per top-level key of the remote JSON document,
    plus an in-memory parsed copy (`Stats._bzconfig`) that is filled lazily
    and dropped after every successful refresh. */
module Config {
  import opened Wrappers

  /** One entry of the `versions` object: `{"version": 53, "title": "Beta"}`. */
  datatype Version = Version(number: int, title: string)

  /** One entry of the `bugQueries` list. */
  datatype Query = Query(id: string, title: string, url: string)

  /** A parsed top-level value of the configuration document. The engine
      reads three shapes; anything else is kept as opaque JSON text. */
  datatype Value =
    | VersionTable(entries: seq<(string, Version)>)  // a JSON object, label -> version, in iteration order
    | QueryList(queries: seq<Query>)
    | Str(text: string)
    | Other(json: string)

  /** A parsed configuration document: its top-level keys in iteration order. */
  type Doc = seq<(string, Value)>

  /** The fields of the Redis hash `bzconfig`. */
  type Hash = map<string, Value>

  const VersionsKey: string := "versions"
  const QueriesKey: string := "bugQueries"
  const RestUrlKey: string := "BUGZILLA_REST_URL"

  /** The dictionary a list of entries denotes: a later entry for the same
      key overrides an earlier one. */
  function ToMap<K, V>(entries: seq<(K, V)>): map<K, V> {
    if |entries| == 0 then map[]
    else map[entries[0].0 := entries[0].1] + ToMap(entries[1..])
  }

  /** The keys of `ToMap(entries)` are exactly the keys the entries mention. */
  lemma {:induction false} ToMapKeys<K, V>(entries: seq<(K, V)>, k: K)
    ensures k in ToMap(entries) <==> exists i :: 0 <= i < |entries| && entries[i].0 == k
  {
    if |entries| > 0 {
      ToMapKeys(entries[1..], k);
      if k in ToMap(entries[1..]) {
        var i :| 0 <= i < |entries[1..]| && entries[1..][i].0 == k;
        assert entries[i + 1].0 == k;
      }
      if exists i :: 0 <= i < |entries| && entries[i].0 == k {
        var i :| 0 <= i < |entries| && entries[i].0 == k;
        if i > 0 {
          assert entries[1..][i - 1].0 == k;
        }
      }
    }
  }

  /** The value `ToMap` keeps for a key is that of the key's last entry. */
  lemma {:induction false} ToMapLastWins<K, V>(entries: seq<(K, V)>, i: nat)
    requires i < |entries|
    requires forall j :: i < j < |entries| ==> entries[j].0 != entries[i].0
    ensures entries[i].0 in ToMap(entries) && ToMap(entries)[entries[i].0] == entries[i].1
  {
    var k := entries[i].0;
    if i == 0 {
      assert forall j :: 0 <= j < |entries[1..]| ==> entries[1..][j] == entries[j + 1];
      ToMapKeys(entries[1..], k);
    } else {
      assert entries[1..][i - 1] == entries[i];
      forall j | i - 1 < j < |entries[1..]|
        ensures entries[1..][j].0 != k
      {
        assert entries[1..][j] == entries[j + 1];
      }
      ToMapLastWins(entries[1..], i - 1);
    }
  }

  /** The first value a document gives for `key`, if any. */
  function DocValue(doc: Doc, key: string): (r: Option<Value>)
    ensures r.None? <==> forall i :: 0 <= i < |doc| ==> doc[i].0 != key
  {
    if |doc| == 0 then None
    else if doc[0].0 == key then Some(doc[0].1)
    else
      var r := DocValue(doc[1..], key);
      assert forall i :: 1 <= i < |doc| ==> doc[i] == doc[1..][i - 1];
      r
  }

  /** A parsed JSON object never repeats a key. */
  predicate UniqueKeys(doc: Doc) {
    forall i, j :: 0 <= i < j < |doc| ==> doc[i].0 != doc[j].0
  }

  /** Python's `!=` on the two stored values: version tables are dictionaries,
      so their entry order does not matter. */
  predicate SameValue(a: Value, b: Value) {
    if a.VersionTable? && b.VersionTable? then ToMap(a.entries) == ToMap(b.entries)
    else a == b
  }

  /** The Redis hash and the in-memory parsed copy `_bzconfig`. */
  datatype ConfigState = ConfigState(stored: Hash, cache: Option<Hash>)

  /** The in-memory copy, when Python would find it truthy (set and non-empty). */
  function UsableCache(st: ConfigState): Option<Hash> {
    if st.cache.Some? && |st.cache.value| > 0 then st.cache else None
  }

  /** A usable in-memory copy agrees with the Redis hash. */
  predicate CacheCoherent(st: ConfigState) {
    UsableCache(st).Some? ==> UsableCache(st).value == st.stored
  }

  /** A call of `version_callback(old_versions, value)`. */
  datatype VersionNotice = VersionNotice(before: Value, after: Value)

  datatype Stored = Stored(hash: Hash, notices: seq<VersionNotice>, raised: bool)

  /** The `for key, value in cfg.iteritems()` loop of `refresh_bzconfig`:
      each key is written with `HSET`; when a version callback is set
      (`watch`) the `versions` key is first compared with the stored value,
      which `json.loads` fails on (raising) when nothing is stored yet. */
  function StoreDoc(hash: Hash, doc: Doc, watch: bool): (r: Stored)
    ensures !watch ==> !r.raised && r.notices == []
    ensures r.raised ==> r.notices == []
    decreases |doc|
  {
    if |doc| == 0 then Stored(hash, [], false)
    else
      var key := doc[0].0;
      var value := doc[0].1;
      if watch && key == VersionsKey && key !in hash then Stored(hash, [], true)
      else
        var notice :=
          if watch && key == VersionsKey && !SameValue(hash[key], value)
          then [VersionNotice(hash[key], value)] else [];
        var rest := StoreDoc(hash[key := value], doc[1..], watch);
        if rest.raised then rest
        else Stored(rest.hash, notice + rest.notices, false)
  }

  /** Unless it raises, storing a document overwrites exactly the document's
      keys (the last value per key) and keeps every other stored key. */
  lemma {:induction false} StoreDocMerges(hash: Hash, doc: Doc, watch: bool)
    ensures !StoreDoc(hash, doc, watch).raised ==> StoreDoc(hash, doc, watch).hash == hash + ToMap(doc)
    decreases |doc|
  {
    if |doc| > 0 && !StoreDoc(hash, doc, watch).raised {
      var key := doc[0].0;
      var value := doc[0].1;
      var rest := ToMap(doc[1..]);
      StoreDocMerges(hash[key := value], doc[1..], watch);
      var a := hash[key := value] + rest;
      var b := hash + (map[key := value] + rest);
      assert a.Keys == b.Keys;
      assert forall k | k in a :: a[k] == b[k];
      assert a == b;
    }
  }

  /** It raises exactly when a version callback is set, the document has a
      `versions` key, and no `versions` field is stored yet. */
  lemma {:induction false} StoreDocRaises(hash: Hash, doc: Doc, watch: bool)
    ensures StoreDoc(hash, doc, watch).raised
        <==> watch && DocValue(doc, VersionsKey).Some? && VersionsKey !in hash
    decreases |doc|
  {
    if |doc| > 0 {
      var key := doc[0].0;
      if !(watch && key == VersionsKey && key !in hash) {
        StoreDocRaises(hash[key := doc[0].1], doc[1..], watch);
      }
    }
  }

  lemma {:induction false} StoreDocQuiet(hash: Hash, doc: Doc, watch: bool)
    requires DocValue(doc, VersionsKey).None?
    ensures StoreDoc(hash, doc, watch).notices == []
    ensures !StoreDoc(hash, doc, watch).raised
    decreases |doc|
  {
    if |doc| > 0 {
      assert doc[0].0 != VersionsKey;
      StoreDocQuiet(hash[doc[0].0 := doc[0].1], doc[1..], watch);
    }
  }

  /** With a version callback, a document with no repeated key
      produces one notice exactly when the new value differs from the one
      stored before the refresh: the callback sees the old value because it
      runs before that key is written. */
  lemma {:induction false} StoreDocNotices(hash: Hash, doc: Doc)
    requires UniqueKeys(doc) && VersionsKey in hash
    ensures !StoreDoc(hash, doc, true).raised
    ensures StoreDoc(hash, doc, true).notices ==
      match DocValue(doc, VersionsKey)
      case None => []
      case Some(v) => if SameValue(hash[VersionsKey], v) then [] else [VersionNotice(hash[VersionsKey], v)]
    decreases |doc|
  {
    if |doc| > 0 {
      var key := doc[0].0;
      var value := doc[0].1;
      assert UniqueKeys(doc[1..]);
      if key == VersionsKey {
        StoreDocQuiet(hash[key := value], doc[1..], true);
      } else {
        assert DocValue(doc[1..], VersionsKey) == DocValue(doc, VersionsKey);
        StoreDocNotices(hash[key := value], doc[1..]);
      }
    }
  }

  datatype Refresh = Refresh(state: ConfigState, notices: seq<VersionNotice>, raised: bool)

  /** `Stats.refresh_bzconfig` given the response to its GET of the
      configuration URL; `watch` says whether a version callback is set. A
      200 response whose body is not a JSON object (`None`) raises from
      `r.json()` or `cfg.iteritems()` before anything is written. */
  function RefreshConfig(st: ConfigState, resp: Response<Option<Doc>>, watch: bool): (r: Refresh)
    ensures !resp.IsOk() ==> r == Refresh(st, [], false)
    ensures resp.IsOk() && resp.body.None? ==> r == Refresh(st, [], true)
    ensures resp.IsOk() && resp.body.Some? && !r.raised
        ==> r.state.stored == st.stored + ToMap(resp.body.value) && r.state.cache.None?
    ensures r.raised ==> r.state.cache == st.cache && r.notices == []
    ensures !watch ==> r.notices == [] && (r.raised <==> resp.IsOk() && resp.body.None?)
    ensures CacheCoherent(st) && !r.raised ==> CacheCoherent(r.state)
  {
    if !resp.IsOk() then Refresh(st, [], false)
    else match resp.body
      case None => Refresh(st, [], true)
      case Some(doc) =>
        var s := StoreDoc(st.stored, doc, watch);
        StoreDocMerges(st.stored, doc, watch);
        if s.raised then Refresh(ConfigState(s.hash, st.cache), s.notices, true)
        else Refresh(ConfigState(s.hash, None), s.notices, false)
  }

  /** When the comparison of `versions` raises, the keys the document lists
      before `versions` have already been written with `HSET`, and nothing
      after it has. */
  lemma {:induction false} StoreDocRaisedPrefix(hash: Hash, doc: Doc, watch: bool, i: nat)
    requires i < |doc| && doc[i].0 == VersionsKey
    requires forall j :: 0 <= j < i ==> doc[j].0 != VersionsKey
    requires StoreDoc(hash, doc, watch).raised
    ensures StoreDoc(hash, doc, watch).hash == hash + ToMap(doc[..i])
    decreases i
  {
    StoreDocRaises(hash, doc, watch);
    if i == 0 {
      assert ToMap(doc[..0]) == map[];
      assert hash + map[] == hash;
    } else {
      var key := doc[0].0;
      var value := doc[0].1;
      assert doc[1..][i - 1] == doc[i];
      forall j | 0 <= j < i - 1
        ensures doc[1..][j].0 != VersionsKey
      {
        assert doc[1..][j] == doc[j + 1];
      }
      StoreDocRaisedPrefix(hash[key := value], doc[1..], watch, i - 1);
      assert doc[..i][1..] == doc[1..][..i - 1];
      var rest := ToMap(doc[1..][..i - 1]);
      var a := hash[key := value] + rest;
      var b := hash + (map[key := value] + rest);
      assert a.Keys == b.Keys;
      assert forall k | k in a :: a[k] == b[k];
      assert a == b;
    }
  }

  /** A refresh that raises on the `versions` comparison leaves the keys
      listed before `versions` written and the in-memory copy untouched. */
  lemma RefreshRaisedKeepsWrites(st: ConfigState, resp: Response<Option<Doc>>, watch: bool, i: nat)
    requires resp.IsOk() && resp.body.Some?
    requires i < |resp.body.value| && resp.body.value[i].0 == VersionsKey
    requires forall j :: 0 <= j < i ==> resp.body.value[j].0 != VersionsKey
    requires RefreshConfig(st, resp, watch).raised
    ensures RefreshConfig(st, resp, watch).state == ConfigState(st.stored + ToMap(resp.body.value[..i]), st.cache)
  {
    StoreDocRaisedPrefix(st.stored, resp.body.value, watch, i);
  }

  lemma MergeIntoEmpty<K, V>(a: map<K, V>, b: map<K, V>)
    ensures |a| == 0 ==> a + b == b
  {
    if |a| == 0 {
      assert |a.Keys| == 0;
    }
  }

  datatype Loaded = Loaded(state: ConfigState, config: Option<Hash>, notices: seq<VersionNotice>)

  /** The `Stats.bzconfig` property: the in-memory copy when it is usable;
      otherwise the Redis hash, refreshed from `resp` first only when the
      hash does not exist yet. `config` is `None` when that refresh raised. */
  function LoadConfig(st: ConfigState, resp: Response<Option<Doc>>, watch: bool): (r: Loaded)
    ensures r.config.Some? ==> r.state.cache == r.config
    ensures r.config.None?
        ==> UsableCache(st).None? && |st.stored| == 0 && RefreshConfig(st, resp, watch).raised
            && r.state.cache == st.cache
    ensures r.config.None? ==> r.state == RefreshConfig(st, resp, watch).state
    ensures UsableCache(st).Some? ==> r == Loaded(st, UsableCache(st), [])
    ensures |st.stored| > 0 ==> r == Loaded(ConfigState(st.stored, r.config), r.config, []) && r.config.Some?
    ensures UsableCache(st).None? && |st.stored| == 0 ==> r.notices == RefreshConfig(st, resp, watch).notices
    ensures UsableCache(st).None? && |st.stored| == 0 && resp.IsOk() && resp.body.Some?
            && !RefreshConfig(st, resp, watch).raised
        ==> r.config == Some(ToMap(resp.body.value))
    ensures UsableCache(st).None? && |st.stored| == 0 && !resp.IsOk() ==> r.config == Some(map[])
    ensures UsableCache(st).None? && |st.stored| == 0 && resp.IsOk() && resp.body.None? ==> r.config.None?
    ensures UsableCache(st).None? && |st.stored| == 0 && RefreshConfig(st, resp, watch).raised ==> r.config.None?
    ensures CacheCoherent(st) && r.config.Some? ==> r.config.value == r.state.stored
  {
    if UsableCache(st).Some? then Loaded(st, UsableCache(st), [])
    else
      var st' :=
        if |st.stored| == 0 then RefreshConfig(st, resp, watch)
        else Refresh(st, [], false);
      if st'.raised then Loaded(st'.state, None, st'.notices)
      else
        MergeIntoEmpty(st.stored, if resp.IsOk() && resp.body.Some? then ToMap(resp.body.value) else map[]);
        Loaded(ConfigState(st'.state.stored, Some(st'.state.stored)), Some(st'.state.stored), st'.notices)
  }

  /** Refreshing invalidates the in-memory copy: the next read sees the
      stored hash merged with the new document, whatever that read's own
      (unused) response would have been. */
  lemma RefreshThenLoad(st: ConfigState, resp: Response<Option<Doc>>, watch: bool, later: Response<Option<Doc>>)
    requires resp.IsOk() && resp.body.Some? && |resp.body.value| > 0
    requires !RefreshConfig(st, resp, watch).raised
    ensures LoadConfig(RefreshConfig(st, resp, watch).state, later, watch).config
         == Some(st.stored + ToMap(resp.body.value))
  {
    var st2 := RefreshConfig(st, resp, watch).state;
    RefreshedState(st, resp, watch);
    LoadExistingHash(st2, later, watch);
  }

  lemma RefreshedState(st: ConfigState, resp: Response<Option<Doc>>, watch: bool)
    requires resp.IsOk() && resp.body.Some? && |resp.body.value| > 0
    requires !RefreshConfig(st, resp, watch).raised
    ensures var st2 := RefreshConfig(st, resp, watch).state;
            st2 == ConfigState(st.stored + ToMap(resp.body.value), None) && |st2.stored| > 0
  {
    var doc := resp.body.value;
    assert doc[0].0 in ToMap(doc);
  }

  /** Once the hash exists, reading the configuration never refreshes: it
      yields the stored hash, given a coherent in-memory copy. */
  lemma LoadExistingHash(st: ConfigState, resp: Response<Option<Doc>>, watch: bool)
    requires |st.stored| > 0 && CacheCoherent(st)
    ensures LoadConfig(st, resp, watch).config == Some(st.stored)
  {
  }
}

=== FILE: engine.dfy ===
/** `Stats.refresh_stats`: one poll cycle over every tracked version and
    every bug query, comparing each fetched count with the head of that
    metric's history, recording changes and reporting them. */
module Engine {
  import opened Wrappers
  import opened Text
  import opened History
  import opened Config

  const Release: string := "{RELEASE}"
  const OlderRelease: string := "{OLDERRELEASE}"
  const CountOnly: string := "&count_only=1"

  // ---------------------------------------------------------------------
  // History keys: "%s:%s" % (vernum, query['id'])

  function MetricKey(vernum: int, queryId: string): string {
    IntToString(vernum) + ":" + queryId
  }

  /** Splits a history key at its first ':' and reads the version number. */
  function ParseKey(key: string): Option<(int, string)> {
    var i := IndexOf(key, ':');
    if i == |key| then None
    else match ParseInt(key[..i])
      case None => None
      case Some(n) => Some((n, key[i + 1..]))
  }

  /** A history key determines its version number and query id, whatever
      characters the id holds: the number's text never contains ':'. */
  lemma MetricKeyRoundTrip(vernum: int, queryId: string)
    ensures ParseKey(MetricKey(vernum, queryId)) == Some((vernum, queryId))
  {
    var v := IntToString(vernum);
    var key := MetricKey(vernum, queryId);
    assert key[|v|] == ':';
    assert forall j :: 0 <= j < |v| ==> key[j] == v[j];
    var i := IndexOf(key, ':');
    assert i == |v|;
    assert key[..i] == v;
    assert key[i + 1..] == queryId;
    IntToStringRoundTrip(vernum);
  }

  /** Distinct (version, query id) pairs never share a history list. */
  lemma MetricKeyInjective(a: int, x: string, b: int, y: string)
    ensures MetricKey(a, x) == MetricKey(b, y) <==> a == b && x == y
  {
    MetricKeyRoundTrip(a, x);
    MetricKeyRoundTrip(b, y);
  }

  // ---------------------------------------------------------------------
  // Request URLs

  /** The request URL for one version and query: the REST base, the
      template with `{RELEASE}` and then `{OLDERRELEASE}` replaced, and
      `&count_only=1`. */
  function BuildUrl(base: string, template: string, vernum: int): string {
    base + TwoPasses(template, vernum) + CountOnly
  }

  /** The intended reading of a template: one left-to-right pass putting the
      version number for `{RELEASE}` and the previous number for
      `{OLDERRELEASE}`. */
  function Substitute(t: string, vernum: int): string
    decreases |t|
  {
    if |t| == 0 then []
    else if StartsWith(t, Release) then IntToString(vernum) + Substitute(t[|Release|..], vernum)
    else if StartsWith(t, OlderRelease) then IntToString(vernum - 1) + Substitute(t[|OlderRelease|..], vernum)
    else [t[0]] + Substitute(t[1..], vernum)
  }

  predicate NumberText(a: string) {
    |a| > 0 && forall i :: 0 <= i < |a| ==> IsDigit(a[i]) || a[i] == '-'
  }

  /** The tail of `{OLDERRELEASE}` holds no '{' and nothing a number's text
      can start with. */
  lemma OlderTailAvoids(a: string)
    requires NumberText(a)
    ensures forall i :: 0 <= i < |OlderRelease[1..]| ==> OlderRelease[1..][i] != Release[0] && OlderRelease[1..][i] != a[0]
  {
    assert OlderRelease[1..] == "OLDERRELEASE}";
  }

  /** Replacing `{RELEASE}` by a number neither creates nor hides a leading
      `{OLDERRELEASE}`. */
  lemma OlderReleaseSurvives(t: string, a: string)
    requires NumberText(a)
    ensures StartsWith(Replace(t, Release, a), OlderRelease) <==> StartsWith(t, OlderRelease)
  {
    var u := Replace(t, Release, a);
    if |t| == 0 {
    } else if StartsWith(t, Release) {
      assert u == a + Replace(t[|Release|..], Release, a);
      assert u[0] == a[0] != '{';
      assert t[1] == Release[1] == 'R' != OlderRelease[1];
    } else {
      var w := OlderRelease[1..];
      assert u == [t[0]] + Replace(t[1..], Release, a);
      OlderTailAvoids(a);
      ReplaceKeepsLeading(t[1..], w, Release, a);
      assert OlderRelease == [OlderRelease[0]] + w;
      assert StartsWith(u, OlderRelease) <==> u[0] == OlderRelease[0] && StartsWith(u[1..], w);
      assert StartsWith(t, OlderRelease) <==> t[0] == OlderRelease[0] && StartsWith(t[1..], w);
    }
  }

  /** What `refresh_stats` does to a template: `{RELEASE}` first, then
      `{OLDERRELEASE}`. */
  function TwoPasses(t: string, vernum: int): string {
    Replace(Replace(t, Release, IntToString(vernum)), OlderRelease, IntToString(vernum - 1))
  }

  lemma TwoPassesAtRelease(t: string, vernum: int)
    requires StartsWith(t, Release)
    requires TwoPasses(t[|Release|..], vernum) == Substitute(t[|Release|..], vernum)
    ensures TwoPasses(t, vernum) == Substitute(t, vernum)
  {
    var a := IntToString(vernum);
    var rest := t[|Release|..];
    assert Replace(t, Release, a) == a + Replace(rest, Release, a);
    ReplaceSkipsPrefix(a, Replace(rest, Release, a), OlderRelease, IntToString(vernum - 1));
  }

  /** The first pass leaves a leading `{OLDERRELEASE}` in place. */
  lemma FirstPassKeepsOlderRelease(rest: string, a: string)
    requires NumberText(a)
    ensures Replace(OlderRelease + rest, Release, a) == OlderRelease + Replace(rest, Release, a)
  {
    var w := OlderRelease[1..];
    OlderTailAvoids(a);
    ReplaceSkipsPrefix(w, rest, Release, a);
    FirstPassStepsOverBrace(rest, a);
    HeadThenTail(OlderRelease, Replace(rest, Release, a));
  }

  lemma HeadThenTail(s: string, r: string)
    requires |s| > 0
    ensures [s[0]] + (s[1..] + r) == s + r
  {
    assert s == [s[0]] + s[1..];
  }

  /** The leading '{' of `{OLDERRELEASE}` is copied as it is. */
  lemma FirstPassStepsOverBrace(rest: string, a: string)
    ensures Replace(OlderRelease + rest, Release, a) == [OlderRelease[0]] + Replace(OlderRelease[1..] + rest, Release, a)
  {
    var x := OlderRelease + rest;
    assert x[1] != Release[1];
    assert x[1..] == OlderRelease[1..] + rest;
  }

  /** The second pass replaces a leading `{OLDERRELEASE}`. */
  lemma SecondPassAtOlderRelease(u: string, b: string)
    ensures Replace(OlderRelease + u, OlderRelease, b) == b + Replace(u, OlderRelease, b)
  {
    assert (OlderRelease + u)[..|OlderRelease|] == OlderRelease;
    assert (OlderRelease + u)[|OlderRelease|..] == u;
  }

  lemma TwoPassesAtOlderRelease(t: string, vernum: int)
    requires StartsWith(t, OlderRelease) && !StartsWith(t, Release)
    requires TwoPasses(t[|OlderRelease|..], vernum) == Substitute(t[|OlderRelease|..], vernum)
    ensures TwoPasses(t, vernum) == Substitute(t, vernum)
  {
    var a := IntToString(vernum);
    var b := IntToString(vernum - 1);
    var rest := t[|OlderRelease|..];
    assert t == OlderRelease + rest;
    FirstPassKeepsOlderRelease(rest, a);
    SecondPassAtOlderRelease(Replace(rest, Release, a), b);
  }

  lemma TwoPassesElsewhere(t: string, vernum: int)
    requires |t| > 0 && !StartsWith(t, OlderRelease) && !StartsWith(t, Release)
    requires TwoPasses(t[1..], vernum) == Substitute(t[1..], vernum)
    ensures TwoPasses(t, vernum) == Substitute(t, vernum)
  {
    var a := IntToString(vernum);
    var u := Replace(t, Release, a);
    assert u == [t[0]] + Replace(t[1..], Release, a);
    OlderReleaseSurvives(t, a);
    assert Replace(u, OlderRelease, IntToString(vernum - 1)) == [u[0]] + Replace(u[1..], OlderRelease, IntToString(vernum - 1));
    assert u[1..] == Replace(t[1..], Release, a);
  }

  /** Replacing `{RELEASE}` first and `{OLDERRELEASE}` second is the same as
      the single simultaneous pass: the first replacement cannot disturb the
      second placeholder, and the numbers it writes contain no '{'. */
  lemma {:induction false} SubstituteInTwoPasses(t: string, vernum: int)
    ensures TwoPasses(t, vernum) == Substitute(t, vernum)
    decreases |t|
  {
    if |t| == 0 {
    } else if StartsWith(t, Release) {
      SubstituteInTwoPasses(t[|Release|..], vernum);
      TwoPassesAtRelease(t, vernum);
    } else if StartsWith(t, OlderRelease) {
      SubstituteInTwoPasses(t[|OlderRelease|..], vernum);
      TwoPassesAtOlderRelease(t, vernum);
    } else {
      SubstituteInTwoPasses(t[1..], vernum);
      TwoPassesElsewhere(t, vernum);
    }
  }

  /** The URL the engine requests, read as a single substitution pass. */
  lemma BuildUrlSubstitutes(base: string, template: string, vernum: int)
    ensures BuildUrl(base, template, vernum) == base + Substitute(template, vernum) + CountOnly
  {
    SubstituteInTwoPasses(template, vernum);
  }

  // ---------------------------------------------------------------------
  // One poll cycle

  datatype Pair = Pair(version: Version, query: Query)

  function PairKey(p: Pair): string {
    MetricKey(p.version.number, p.query.id)
  }

  function PairUrl(base: string, p: Pair): string {
    BuildUrl(base, p.query.url, p.version.number)
  }

  /** The Bugzilla count lookup: the response to a GET of a URL, whose body
      is the parsed `int(bug_count)`, or `None` when the body holds none. */
  type Fetch = string -> Response<Option<int>>

  /** The response each pair's request gets. */
  type Ask = Pair -> Response<Option<int>>

  /** Each pair's request is a GET of the URL built for that pair. */
  function AskBugzilla(base: string, fetch: Fetch): Ask {
    p => fetch(PairUrl(base, p))
  }

  /** A call of `stats_callback(vernum, ver['title'], query['title'],
      last_bug_num, current_bug_num)`. */
  datatype Event = Event(vernum: int, versionTitle: string, queryTitle: string, previous: Option<int>, current: int)

  /** The result of polling: the history lists afterwards, the callbacks
      fired in order, and whether polling ended by raising. */
  datatype Cycle = Cycle(history: Store, events: seq<Event>, raised: bool)

  /** One pass of the loop body for one pair. A failed request (no
      connection, or a status other than 200) changes nothing; a 200 whose
      body has no usable count raises; a count equal to the head of the
      pair's list changes nothing; any other count, or a first one, is
      pushed on top of that list alone, stamped `now`, and reported with the
      previous value when a stats callback is set (`notify`). */
  function Visit(h: Store, p: Pair, ask: Ask, now: real, notify: bool): Cycle
  {
    var resp := ask(p);
    if !resp.IsOk() then Cycle(h, [], false)
    else match resp.body
      case None => Cycle(h, [], true)
      case Some(count) =>
        var key := PairKey(p);
        var last := Latest(h, key);
        if last == Some(count) then Cycle(h, [], false)
        else
          var event := Event(p.version.number, p.version.title, p.query.title, last, count);
          Cycle(Push(h, key, Observation(count, now)), if notify then [event] else [], false)
  }

  /** The outcome of one pair's pass, case by case. */
  lemma VisitCases(h: Store, p: Pair, ask: Ask, now: real, notify: bool)
    ensures var r := Visit(h, p, ask, now, notify);
            var resp := ask(p);
            var key := PairKey(p);
            && (r.raised <==> resp.IsOk() && resp.body.None?)
            && (r.raised ==> r == Cycle(h, [], true))
            && (!resp.IsOk() ==> r == Cycle(h, [], false))
            && (resp.IsOk() && resp.body.Some? && resp.body == Latest(h, key) ==> r == Cycle(h, [], false))
            && (resp.IsOk() && resp.body.Some? && resp.body != Latest(h, key) ==>
                  && Lookup(r.history, key) == [Observation(resp.body.value, now)] + Lookup(h, key)
                  && r.events == if notify then [Event(p.version.number, p.version.title, p.query.title,
                                                       Latest(h, key), resp.body.value)] else [])
            && (resp.IsOk() && resp.body.Some? ==> Latest(r.history, key) == resp.body)
  {
  }

  /** One pair's pass touches no other pair's list. */
  lemma VisitFrame(h: Store, p: Pair, ask: Ask, now: real, notify: bool, k: string)
    requires k != PairKey(p)
    ensures Lookup(Visit(h, p, ask, now, notify).history, k) == Lookup(h, k)
  {
  }

  /** The nested loop of `refresh_stats` over the pairs in iteration order:
      a raise stops the loop but keeps what earlier pairs did. */
  function Poll(h: Store, ps: seq<Pair>, ask: Ask, now: real, notify: bool): Cycle
    decreases |ps|
  {
    if |ps| == 0 then Cycle(h, [], false)
    else
      var v := Visit(h, ps[0], ask, now, notify);
      AndThen(v, Poll(v.history, ps[1..], ask, now, notify))
  }

  /** `first` followed by `next`, which started from `first`'s history: a
      raise in `first` ends the cycle there. */
  function AndThen(first: Cycle, next: Cycle): Cycle {
    if first.raised then first
    else Cycle(next.history, first.events + next.events, next.raised)
  }

  lemma AndThenAssociative(x: Cycle, y: Cycle, z: Cycle)
    ensures AndThen(x, AndThen(y, z)) == AndThen(AndThen(x, y), z)
  {
    if !x.raised && !y.raised {
      assert x.events + (y.events + z.events) == (x.events + y.events) + z.events;
    }
  }

  /** `after` is `before` with zero or more observations stamped `now` on top. */
  predicate GrownAt(before: seq<Observation>, after: seq<Observation>, now: real) {
    && |before| <= |after|
    && after[|after| - |before|..] == before
    && forall i :: 0 <= i < |after| - |before| ==> after[i].at == now
  }

  /** One pair's pass adds at most one observation, stamped `now`, to the
      top of any list. */
  lemma VisitGrows(h: Store, p: Pair, ask: Ask, now: real, notify: bool, k: string)
    ensures GrownAt(Lookup(h, k), Lookup(Visit(h, p, ask, now, notify).history, k), now)
  {
    var before := Lookup(h, k);
    var r := Visit(h, p, ask, now, notify);
    VisitCases(h, p, ask, now, notify);
    if k != PairKey(p) || r.history == h {
      if k != PairKey(p) {
        VisitFrame(h, p, ask, now, notify, k);
      }
      assert Lookup(r.history, k) == before;
      assert before[0..] == before;
    } else {
      var after := Lookup(r.history, k);
      assert after == [Observation(ask(p).body.value, now)] + before;
      assert after[1..] == before;
    }
  }

  /** A cycle only ever adds observations stamped `now` to the front of a
      list: it never edits or removes one. */
  lemma {:induction false} PollGrows(h: Store, ps: seq<Pair>, ask: Ask, now: real, notify: bool, k: string)
    ensures GrownAt(Lookup(h, k), Lookup(Poll(h, ps, ask, now, notify).history, k), now)
    decreases |ps|
  {
    var before := Lookup(h, k);
    if |ps| == 0 {
      assert before[0..] == before;
    } else {
      var v := Visit(h, ps[0], ask, now, notify);
      VisitGrows(h, ps[0], ask, now, notify, k);
      if !v.raised {
        PollGrows(v.history, ps[1..], ask, now, notify, k);
        var rest := Poll(v.history, ps[1..], ask, now, notify);
        assert Poll(h, ps, ask, now, notify).history == rest.history;
        GrownAtTransitive(before, Lookup(v.history, k), Lookup(rest.history, k), now);
      }
    }
  }

  /** A cycle leaves alone every list no pair maps to. */
  lemma {:induction false} PollFrame(h: Store, ps: seq<Pair>, ask: Ask, now: real, notify: bool, k: string)
    requires forall i :: 0 <= i < |ps| ==> PairKey(ps[i]) != k
    ensures Lookup(Poll(h, ps, ask, now, notify).history, k) == Lookup(h, k)
    decreases |ps|
  {
    if |ps| > 0 {
      var v := Visit(h, ps[0], ask, now, notify);
      VisitFrame(h, ps[0], ask, now, notify, k);
      if !v.raised {
        assert forall i :: 0 <= i < |ps[1..]| ==> ps[1..][i] == ps[i + 1];
        PollFrame(v.history, ps[1..], ask, now, notify, k);
      }
    }
  }

  lemma GrownAtTransitive(a: seq<Observation>, b: seq<Observation>, c: seq<Observation>, now: real)
    requires GrownAt(a, b, now) && GrownAt(b, c, now)
    ensures GrownAt(a, c, now)
  {
    assert c[|c| - |a|..] == c[|c| - |b|..][|b| - |a|..];
  }

  /** Every callback reports a real change: the previous value (absent for
      a new metric) differs from the new one. */
  lemma {:induction false} PollEventsAreChanges(h: Store, ps: seq<Pair>, ask: Ask, now: real, notify: bool)
    ensures forall e :: e in Poll(h, ps, ask, now, notify).events ==> e.previous != Some(e.current)
    ensures !notify ==> Poll(h, ps, ask, now, notify).events == []
    decreases |ps|
  {
    if |ps| > 0 {
      var v := Visit(h, ps[0], ask, now, notify);
      if !v.raised {
        PollEventsAreChanges(v.history, ps[1..], ask, now, notify);
      }
    }
  }

  /** Running the pairs `a` and then `b` is one cycle over `a + b`: `a`'s
      callbacks come first, and if `a` raised, `b` never runs. */
  lemma {:induction false} PollConcat(h: Store, a: seq<Pair>, b: seq<Pair>, ask: Ask, now: real, notify: bool)
    ensures var ra := Poll(h, a, ask, now, notify);
            Poll(h, a + b, ask, now, notify) == AndThen(ra, Poll(ra.history, b, ask, now, notify))
    decreases |a|
  {
    if |a| == 0 {
      assert a + b == b;
      var rb := Poll(h, b, ask, now, notify);
      assert [] + rb.events == rb.events;
    } else {
      assert (a + b)[0] == a[0];
      assert (a + b)[1..] == a[1..] + b;
      var v := Visit(h, a[0], ask, now, notify);
      var tail := Poll(v.history, a[1..], ask, now, notify);
      PollConcat(v.history, a[1..], b, ask, now, notify);
      AndThenAssociative(v, tail, Poll(tail.history, b, ask, now, notify));
    }
  }

  /** A failed request skips only its own pair: the cycle is the cycle over
      the other pairs. */
  lemma PollSkipsFailedPair(h: Store, ps: seq<Pair>, i: nat, ask: Ask, now: real, notify: bool)
    requires i < |ps| && !ask(ps[i]).IsOk()
    ensures Poll(h, ps, ask, now, notify) == Poll(h, ps[..i] + ps[i + 1..], ask, now, notify)
  {
    var tail := ps[i..];
    assert ps == ps[..i] + tail;
    PollConcat(h, ps[..i], tail, ask, now, notify);
    PollConcat(h, ps[..i], ps[i + 1..], ask, now, notify);
    var ra := Poll(h, ps[..i], ask, now, notify);
    assert tail[1..] == ps[i + 1..];
    PollFailedFirst(ra.history, tail, ask, now, notify);
  }

  lemma PollFailedFirst(h: Store, ps: seq<Pair>, ask: Ask, now: real, notify: bool)
    requires |ps| > 0 && !ask(ps[0]).IsOk()
    ensures Poll(h, ps, ask, now, notify) == Poll(h, ps[1..], ask, now, notify)
  {
    var v := Visit(h, ps[0], ask, now, notify);
    VisitCases(h, ps[0], ask, now, notify);
    var rest := Poll(h, ps[1..], ask, now, notify);
    assert [] + rest.events == rest.events;
  }

  predicate DistinctKeys(ps: seq<Pair>) {
    forall i, j :: 0 <= i < j < |ps| ==> PairKey(ps[i]) != PairKey(ps[j])
  }

  lemma DistinctKeysTail(ps: seq<Pair>)
    requires |ps| > 0 && DistinctKeys(ps)
    ensures DistinctKeys(ps[1..])
    ensures forall i :: 0 <= i < |ps[1..]| ==> PairKey(ps[1..][i]) != PairKey(ps[0])
  {
    assert forall i :: 0 <= i < |ps[1..]| ==> ps[1..][i] == ps[i + 1];
  }

  /** Polling again with the same counts pushes nothing and reports
      nothing, whatever the new timestamp, provided no two pairs share a
      history key. A cycle that raised raises again at the same pair. */
  lemma {:induction false} PollIdempotent(h: Store, ps: seq<Pair>, ask: Ask, now: real, later: real, notify: bool)
    requires DistinctKeys(ps)
    ensures var first := Poll(h, ps, ask, now, notify);
            Poll(first.history, ps, ask, later, notify) == Cycle(first.history, [], first.raised)
    decreases |ps|
  {
    if |ps| > 0 {
      var p := ps[0];
      var first := Poll(h, ps, ask, now, notify);
      var v := Visit(h, p, ask, now, notify);
      var rest := Poll(v.history, ps[1..], ask, now, notify);
      assert first == AndThen(v, rest);
      VisitCases(h, p, ask, now, notify);
      if v.raised {
        VisitCases(h, p, ask, later, notify);
      } else {
        DistinctKeysTail(ps);
        PollFrame(v.history, ps[1..], ask, now, notify, PairKey(p));
        assert Latest(first.history, PairKey(p)) == Latest(v.history, PairKey(p));
        var again := Visit(first.history, p, ask, later, notify);
        VisitCases(first.history, p, ask, later, notify);
        assert again == Cycle(first.history, [], false);
        PollIdempotent(v.history, ps[1..], ask, now, later, notify);
        var second := Poll(first.history, ps[1..], ask, later, notify);
        assert second == Cycle(first.history, [], first.raised);
        assert Poll(first.history, ps, ask, later, notify) == AndThen(again, second);
      }
    }
  }

  /** The first pair's count survives the rest of the cycle when no later
      pair shares its list. */
  lemma PollRecordsFirst(h: Store, ps: seq<Pair>, ask: Ask, now: real, notify: bool)
    requires |ps| > 0 && forall j :: 0 < j < |ps| ==> PairKey(ps[j]) != PairKey(ps[0])
    requires !Poll(h, ps, ask, now, notify).raised
    requires ask(ps[0]).IsOk()
    ensures ask(ps[0]).body.Some?
    ensures Latest(Poll(h, ps, ask, now, notify).history, PairKey(ps[0])) == ask(ps[0]).body
  {
    var v := Visit(h, ps[0], ask, now, notify);
    var rest := Poll(v.history, ps[1..], ask, now, notify);
    assert Poll(h, ps, ask, now, notify) == AndThen(v, rest);
    VisitCases(h, ps[0], ask, now, notify);
    assert forall j :: 0 <= j < |ps[1..]| ==> PairKey(ps[1..][j]) != PairKey(ps[0]) by {
      forall j | 0 <= j < |ps[1..]| ensures PairKey(ps[1..][j]) != PairKey(ps[0]) {
        assert ps[1..][j] == ps[j + 1];
      }
    }
    PollFrame(v.history, ps[1..], ask, now, notify, PairKey(ps[0]));
  }

  /** After a cycle that did not raise, a pair whose request succeeded got a
      count, and its latest entry is that count unless a later pair shares
      its list. */
  lemma {:induction false} PollRecordsFetched(h: Store, ps: seq<Pair>, i: nat, ask: Ask, now: real, notify: bool)
    requires i < |ps| && forall j :: i < j < |ps| ==> PairKey(ps[j]) != PairKey(ps[i])
    requires !Poll(h, ps, ask, now, notify).raised
    requires ask(ps[i]).IsOk()
    ensures ask(ps[i]).body.Some?
    ensures Latest(Poll(h, ps, ask, now, notify).history, PairKey(ps[i])) == ask(ps[i]).body
    decreases |ps|
  {
    if i == 0 {
      PollRecordsFirst(h, ps, ask, now, notify);
    } else {
      var v := Visit(h, ps[0], ask, now, notify);
      PollUnfolds(h, ps, ask, now, notify);
      var tail := ps[1..];
      assert tail[i - 1] == ps[i];
      assert forall j :: i - 1 < j < |tail| ==> PairKey(tail[j]) != PairKey(tail[i - 1]) by {
        forall j | i - 1 < j < |tail| ensures PairKey(tail[j]) != PairKey(tail[i - 1]) {
          assert tail[j] == ps[j + 1];
        }
      }
      PollRecordsFetched(v.history, tail, i - 1, ask, now, notify);
    }
  }

  /** A cycle that did not raise ends where the cycle over its tail,
      started after the first pair, ends. */
  lemma PollUnfolds(h: Store, ps: seq<Pair>, ask: Ask, now: real, notify: bool)
    requires |ps| > 0 && !Poll(h, ps, ask, now, notify).raised
    ensures var v := Visit(h, ps[0], ask, now, notify);
            && !v.raised
            && !Poll(v.history, ps[1..], ask, now, notify).raised
            && Poll(h, ps, ask, now, notify).history == Poll(v.history, ps[1..], ask, now, notify).history
  {
  }

  // ---------------------------------------------------------------------
  // The cross-product of versions and queries

  function Row(v: Version, qs: seq<Query>): seq<Pair> {
    seq(|qs|, j requires 0 <= j < |qs| => Pair(v, qs[j]))
  }

  /** Version-major order: every query of the first version, then every
      query of the second, and so on. */
  function CrossProduct(vs: seq<Version>, qs: seq<Query>): seq<Pair> {
    if |vs| == 0 then [] else Row(vs[0], qs) + CrossProduct(vs[1..], qs)
  }

  /** Pair number `i * |qs| + j` is version `i` with query `j`. */
  lemma {:induction false} CrossProductOrder(vs: seq<Version>, qs: seq<Query>, i: nat, j: nat)
    requires i < |vs| && j < |qs|
    ensures |CrossProduct(vs, qs)| == |vs| * |qs|
    ensures i * |qs| + j < |CrossProduct(vs, qs)|
    ensures CrossProduct(vs, qs)[i * |qs| + j] == Pair(vs[i], qs[j])
  {
    CrossProductLength(vs, qs);
    if i > 0 {
      CrossProductOrder(vs[1..], qs, i - 1, j);
      assert i * |qs| + j == |qs| + ((i - 1) * |qs| + j);
    }
  }

  lemma {:induction false} CrossProductLength(vs: seq<Version>, qs: seq<Query>)
    ensures |CrossProduct(vs, qs)| == |vs| * |qs|
  {
    if |vs| > 0 {
      CrossProductLength(vs[1..], qs);
      assert |vs| * |qs| == |qs| + (|vs| - 1) * |qs|;
    }
  }

  lemma {:induction false} CrossProductMembers(vs: seq<Version>, qs: seq<Query>, p: Pair)
    requires p in CrossProduct(vs, qs)
    ensures p.version in vs && p.query in qs
  {
    if |vs| > 0 {
      if p !in Row(vs[0], qs) {
        CrossProductMembers(vs[1..], qs, p);
      }
    }
  }

  predicate DistinctNumbers(vs: seq<Version>) {
    forall i, j :: 0 <= i < j < |vs| ==> vs[i].number != vs[j].number
  }

  predicate DistinctIds(qs: seq<Query>) {
    forall i, j :: 0 <= i < j < |qs| ==> qs[i].id != qs[j].id
  }

  /** Distinct version numbers and distinct query ids give every pair of
      the cross-product its own history key. */
  lemma {:induction false} CrossProductDistinctKeys(vs: seq<Version>, qs: seq<Query>)
    requires DistinctNumbers(vs) && DistinctIds(qs)
    ensures DistinctKeys(CrossProduct(vs, qs))
  {
    if |vs| > 0 {
      var row := Row(vs[0], qs);
      var rest := CrossProduct(vs[1..], qs);
      assert DistinctNumbers(vs[1..]);
      CrossProductDistinctKeys(vs[1..], qs);
      var ps := row + rest;
      forall a, b | 0 <= a < b < |ps|
        ensures PairKey(ps[a]) != PairKey(ps[b])
      {
        var x := ps[a];
        var y := ps[b];
        MetricKeyInjective(x.version.number, x.query.id, y.version.number, y.query.id);
        if b < |row| {
          assert x.query == qs[a] && y.query == qs[b];
        } else if a < |row| {
          assert y == rest[b - |row|];
          CrossProductMembers(vs[1..], qs, y);
          var k :| 0 <= k < |vs[1..]| && vs[1..][k] == y.version;
          assert y.version == vs[k + 1];
        } else {
          assert x == rest[a - |row|] && y == rest[b - |row|];
        }
      }
    }
  }

  // ---------------------------------------------------------------------
  // refresh_stats as a whole

  /** `self.bzconfig['versions'].values()`. */
  function VersionsOf(entries: seq<(string, Version)>): (vs: seq<Version>)
    ensures |vs| == |entries| && forall i :: 0 <= i < |entries| ==> vs[i] == entries[i].1
  {
    if |entries| == 0 then [] else [entries[0].1] + VersionsOf(entries[1..])
  }

  /** What the loops read from the configuration: the pairs to poll and the
      REST base URL. `None` is the `KeyError` or `TypeError` the code raises
      before any request when `versions` is missing or not an object, or,
      with at least one version, `bugQueries` is missing or not a list, or,
      with at least one pair, `BUGZILLA_REST_URL` is missing or not a string. */
  function Targets(cfg: Hash): Option<(seq<Pair>, string)> {
    if VersionsKey !in cfg || !cfg[VersionsKey].VersionTable? then None
    else
      var vs := VersionsOf(cfg[VersionsKey].entries);
      if |vs| == 0 then Some(([], ""))
      else if QueriesKey !in cfg || !cfg[QueriesKey].QueryList? then None
      else
        var qs := cfg[QueriesKey].queries;
        if |qs| == 0 then Some(([], ""))
        else if RestUrlKey !in cfg || !cfg[RestUrlKey].Str? then None
        else Some((CrossProduct(vs, qs), cfg[RestUrlKey].text))
  }

  /** A configuration whose pairs never share a history key. */
  predicate DistinctTargets(cfg: Hash) {
    Targets(cfg).Some? ==> DistinctKeys(Targets(cfg).value.0)
  }

  /** Version numbers and query ids that are unique in a configuration make
      its targets distinct. */
  lemma TargetsDistinct(cfg: Hash)
    requires VersionsKey in cfg && cfg[VersionsKey].VersionTable?
    requires DistinctNumbers(VersionsOf(cfg[VersionsKey].entries))
    requires QueriesKey in cfg && cfg[QueriesKey].QueryList? ==> DistinctIds(cfg[QueriesKey].queries)
    ensures DistinctTargets(cfg)
  {
    if Targets(cfg).Some? && QueriesKey in cfg && cfg[QueriesKey].QueryList? {
      CrossProductDistinctKeys(VersionsOf(cfg[VersionsKey].entries), cfg[QueriesKey].queries);
    }
  }

  datatype Run = Run(config: ConfigState, notices: seq<VersionNotice>, cycle: Cycle)

  /** `Stats.refresh_stats`: read the configuration through the lazy
      `bzconfig` property (`lazy` answers the refresh it may trigger), then
      poll every pair. */
  function RefreshStats(st: ConfigState, h: Store, lazy: Response<Option<Doc>>, fetch: Fetch, now: real, notify: bool, watch: bool): (r: Run)
    ensures r.config == LoadConfig(st, lazy, watch).state
    ensures LoadConfig(st, lazy, watch).config.None? ==> r.cycle == Cycle(h, [], true)
    ensures LoadConfig(st, lazy, watch).config.Some? && Targets(LoadConfig(st, lazy, watch).config.value).None?
            ==> r.cycle == Cycle(h, [], true)
    ensures var cfg := LoadConfig(st, lazy, watch).config;
            cfg.Some? && Targets(cfg.value).Some?
            ==> r.cycle == Poll(h, Targets(cfg.value).value.0, AskBugzilla(Targets(cfg.value).value.1, fetch), now, notify)
    ensures r.notices == LoadConfig(st, lazy, watch).notices
  {
    var loaded := LoadConfig(st, lazy, watch);
    match loaded.config
    case None => Run(loaded.state, loaded.notices, Cycle(h, [], true))
    case Some(cfg) =>
      match Targets(cfg)
      case None => Run(loaded.state, loaded.notices, Cycle(h, [], true))
      case Some(targets) => Run(loaded.state, loaded.notices, Poll(h, targets.0, AskBugzilla(targets.1, fetch), now, notify))
  }

  /** With a configuration already stored (so no refresh is triggered) and
      a coherent in-memory copy, a second `refresh_stats` with the same
      counts reads the same configuration, pushes nothing and reports
      nothing. */
  lemma RefreshStatsIdempotent(st: ConfigState, h: Store, lazy: Response<Option<Doc>>, lazy2: Response<Option<Doc>>,
                               fetch: Fetch, now: real, later: real, notify: bool, watch: bool)
    requires |st.stored| > 0 && CacheCoherent(st) && DistinctTargets(st.stored)
    ensures var first := RefreshStats(st, h, lazy, fetch, now, notify, watch);
            var second := RefreshStats(first.config, first.cycle.history, lazy2, fetch, later, notify, watch);
            && second.config == first.config
            && second.cycle == Cycle(first.cycle.history, [], first.cycle.raised)
  {
    var first := RefreshStats(st, h, lazy, fetch, now, notify, watch);
    assert LoadConfig(st, lazy, watch).config == Some(st.stored);
    assert LoadConfig(first.config, lazy2, watch).config == Some(st.stored);
    match Targets(st.stored)
    case None =>
    case Some(targets) =>
      PollIdempotent(h, targets.0, AskBugzilla(targets.1, fetch), now, later, notify);
  }
}

=== FILE: history.dfy ===
/** The per-metric history lists kept in Redis: one list per key, newest
    observation at index 0, grown only by `LPUSH`. */
module History {
  import opened Wrappers

  /** One recorded `(bug_count, time.time())` pair. */
  datatype Observation = Observation(count: int, at: real)

  /** Every Redis list the engine writes, by key. A key that was never
      pushed to is simply absent (Redis reports length 0 for it). */
  type Store = map<string, seq<Observation>>

  /** `LRANGE key 0 -1`: the whole list, newest first. */
  function Lookup(h: Store, key: string): seq<Observation> {
    if key in h then h[key] else []
  }

  /** The last recorded count for `key`: `None` when `LLEN key` is 0, else
      the count of `LINDEX key 0`. */
  function Latest(h: Store, key: string): Option<int> {
    var list := Lookup(h, key);
    if |list| == 0 then None else Some(list[0].count)
  }

  /** `LPUSH key obs`. */
  function Push(h: Store, key: string, obs: Observation): (h': Store)
    ensures Lookup(h', key) == [obs] + Lookup(h, key)
    ensures Latest(h', key) == Some(obs.count)
    ensures forall k :: k != key ==> Lookup(h', k) == Lookup(h, k)
  {
    h[key := [obs] + Lookup(h, key)]
  }

  /** Pushing `obs[0]`, then `obs[1]`, and so on, to the same key. */
  function PushAll(h: Store, key: string, obs: seq<Observation>): Store
    decreases |obs|
  {
    if |obs| == 0 then h else PushAll(Push(h, key, obs[0]), key, obs[1..])
  }

  function Reverse<T>(s: seq<T>): (r: seq<T>)
    ensures |r| == |s|
  {
    if |s| == 0 then [] else Reverse(s[1..]) + [s[0]]
  }

  lemma {:induction false} ReverseHead<T>(s: seq<T>)
    requires |s| > 0
    ensures Reverse(s)[0] == s[|s| - 1]
  {
    if |s| > 1 {
      ReverseHead(s[1..]);
    }
  }

  /** After N pushes the list holds them newest first on top of what was
      there. */
  lemma {:induction false} PushAllStacks(h: Store, key: string, obs: seq<Observation>)
    ensures Lookup(PushAll(h, key, obs), key) == Reverse(obs) + Lookup(h, key)
    decreases |obs|
  {
    if |obs| == 0 {
      assert Reverse(obs) + Lookup(h, key) == Lookup(h, key);
    } else {
      var h1 := Push(h, key, obs[0]);
      PushAllStacks(h1, key, obs[1..]);
      var old1 := Lookup(h, key);
      var r1 := Reverse(obs[1..]);
      assert PushAll(h, key, obs) == PushAll(h1, key, obs[1..]);
      assert Lookup(h1, key) == [obs[0]] + old1;
      assert r1 + ([obs[0]] + old1) == (r1 + [obs[0]]) + old1;
    }
  }

  /** Pushing to one key leaves every other key's list alone. */
  lemma {:induction false} PushAllFrame(h: Store, key: string, obs: seq<Observation>, k: string)
    requires k != key
    ensures Lookup(PushAll(h, key, obs), k) == Lookup(h, k)
    decreases |obs|
  {
    if |obs| > 0 {
      PushAllFrame(Push(h, key, obs[0]), key, obs[1..], k);
    }
  }

  /** So after N pushes `Latest` reports the N-th, most recent, one. */
  lemma LatestAfterPushes(h: Store, key: string, obs: seq<Observation>)
    requires |obs| > 0
    ensures Latest(PushAll(h, key, obs), key) == Some(obs[|obs| - 1].count)
  {
    PushAllStacks(h, key, obs);
    ReverseHead(obs);
  }
}

=== FILE: text.dfy ===
/** The string operations the bot relies on, each modelled on the Python
    builtin it stands for: `str()` of an integer, `str.startswith`,
    `str.replace`, `str.strip`, `str.split()`, `str.split(':')[0]` and the
    ordering `list.sort()` uses on strings. */
module Text {
  import opened Wrappers

  predicate IsDigit(c: char) {
    '0' <= c <= '9'
  }

  predicate AllDigits(s: string) {
    forall i :: 0 <= i < |s| ==> IsDigit(s[i])
  }

  function DigitChar(d: nat): (c: char)
    requires d < 10
    ensures IsDigit(c) && c as int - '0' as int == d
  {
    (d + '0' as int) as char
  }

  /** Decimal digits of `n`, most significant first, without leading zeros. */
  function NatDigits(n: nat): (s: string)
    ensures |s| > 0 && AllDigits(s)
  {
    if n < 10 then [DigitChar(n)] else NatDigits(n / 10) + [DigitChar(n % 10)]
  }

  /** Python's `str(n)` (and `'%s' % n`, `'%d' % n`) for an integer `n`. */
  function IntToString(n: int): (s: string)
    ensures |s| > 0
    ensures forall i :: 0 <= i < |s| ==> IsDigit(s[i]) || s[i] == '-'
  {
    if n < 0 then "-" + NatDigits(-n) else NatDigits(n)
  }

  /** The value of a string of decimal digits. */
  function ParseNat(s: string): nat
    requires AllDigits(s)
  {
    if |s| == 0 then 0
    else 10 * ParseNat(s[..|s| - 1]) + (s[|s| - 1] as int - '0' as int)
  }

  /** Reads back what `IntToString` writes: an optional minus sign followed
      by at least one digit. */
  function ParseInt(s: string): Option<int> {
    if |s| > 0 && AllDigits(s) then Some(ParseNat(s))
    else if |s| > 1 && s[0] == '-' && AllDigits(s[1..]) then Some(-(ParseNat(s[1..]) as int))
    else None
  }

  lemma {:induction false} ParseNatDigits(n: nat)
    ensures ParseNat(NatDigits(n)) == n
  {
    if n >= 10 {
      var s := NatDigits(n);
      assert s[..|s| - 1] == NatDigits(n / 10);
      ParseNatDigits(n / 10);
    }
  }

  /** `str()` of an integer can always be read back: it loses nothing. */
  lemma IntToStringRoundTrip(n: int)
    ensures ParseInt(IntToString(n)) == Some(n)
  {
    if n < 0 {
      var s := IntToString(n);
      assert s[1..] == NatDigits(-n);
      assert !IsDigit(s[0]);
      ParseNatDigits(-n);
    } else {
      ParseNatDigits(n);
    }
  }

  // ---------------------------------------------------------------------
  // Prefixes, searching and replacing

  /** Python's `s.startswith(p)`. */
  predicate StartsWith(s: string, p: string) {
    |p| <= |s| && s[..|p|] == p
  }

  /** The index of the first `c` in `s`, or `|s|` when there is none. */
  function IndexOf(s: string, c: char): (i: nat)
    ensures i <= |s|
    ensures i < |s| ==> s[i] == c
    ensures forall j :: 0 <= j < i ==> s[j] != c
  {
    if |s| == 0 then 0
    else if s[0] == c then 0
    else 1 + IndexOf(s[1..], c)
  }

  /** Python's `s.split(c)[0]`: everything before the first `c`. */
  function BeforeFirst(s: string, c: char): (r: string)
    ensures StartsWith(s, r)
    ensures c !in r
    ensures |r| < |s| ==> s[|r|] == c
  {
    s[..IndexOf(s, c)]
  }

  /** Python's `s.replace(pat, rep)`: every occurrence of `pat`, scanning left
      to right and never overlapping, becomes `rep`; an empty `pat` puts `rep`
      before every character and at the end. */
  function Replace(s: string, pat: string, rep: string): string
    decreases |s|
  {
    if |pat| == 0 then
      if |s| == 0 then rep else rep + [s[0]] + Replace(s[1..], pat, rep)
    else if |s| == 0 then []
    else if StartsWith(s, pat) then rep + Replace(s[|pat|..], pat, rep)
    else [s[0]] + Replace(s[1..], pat, rep)
  }

  /** `pat` occurs somewhere in `s`. */
  predicate Occurs(pat: string, s: string) {
    exists i :: 0 <= i <= |s| && StartsWith(s[i..], pat)
  }

  /** Replacing a pattern that does not occur changes nothing. */
  lemma {:induction false} ReplaceAbsent(s: string, pat: string, rep: string)
    requires |pat| > 0 && !Occurs(pat, s)
    ensures Replace(s, pat, rep) == s
    decreases |s|
  {
    if |s| > 0 {
      assert s[0..] == s;
      assert !StartsWith(s, pat);
      forall i | 0 <= i <= |s[1..]|
        ensures !StartsWith(s[1..][i..], pat)
      {
        assert s[1..][i..] == s[i + 1..];
      }
      ReplaceAbsent(s[1..], pat, rep);
    }
  }

  /** A prefix in which `pat` cannot start (it never holds `pat`'s first
      character) is copied unchanged, and replacing continues after it. */
  lemma {:induction false} ReplaceSkipsPrefix(x: string, y: string, pat: string, rep: string)
    requires |pat| > 0
    requires forall i :: 0 <= i < |x| ==> x[i] != pat[0]
    ensures Replace(x + y, pat, rep) == x + Replace(y, pat, rep)
  {
    if |x| == 0 {
      assert x + y == y;
    } else {
      assert (x + y)[0] == x[0];
      assert !StartsWith(x + y, pat);
      assert (x + y)[1..] == x[1..] + y;
      ReplaceSkipsPrefix(x[1..], y, pat, rep);
    }
  }

  /** Replacing never creates or destroys a leading `w` when `w` shares no
      character with the first characters of `pat` and `rep`. */
  lemma {:induction false} ReplaceKeepsLeading(t: string, w: string, pat: string, rep: string)
    requires |pat| > 0 && |rep| > 0
    requires forall i :: 0 <= i < |w| ==> w[i] != pat[0] && w[i] != rep[0]
    ensures StartsWith(Replace(t, pat, rep), w) <==> StartsWith(t, w)
    decreases |t|
  {
    var u := Replace(t, pat, rep);
    if |w| == 0 {
    } else if |t| == 0 {
    } else if StartsWith(t, pat) {
      assert u[0] == rep[0];
      assert t[0] == pat[0];
    } else {
      assert u == [t[0]] + Replace(t[1..], pat, rep);
      ReplaceKeepsLeading(t[1..], w[1..], pat, rep);
      assert StartsWith(u, w) <==> u[0] == w[0] && StartsWith(u[1..], w[1..]);
      assert StartsWith(t, w) <==> t[0] == w[0] && StartsWith(t[1..], w[1..]);
    }
  }

  // ---------------------------------------------------------------------
  // Whitespace: `string.whitespace`, `str.strip()` and `str.split()`

  /** Python 2's `string.whitespace`: space, tab, line feed, vertical tab,
      form feed and carriage return. */
  predicate IsWhitespace(c: char) {
    c == ' ' || 9 <= c as int <= 13
  }

  /** Python's `string.punctuation`: the 32 printable ASCII characters that
      are neither letters, digits nor space. */
  predicate IsPunctuation(c: char) {
    33 <= c as int <= 47 || 58 <= c as int <= 64 || 91 <= c as int <= 96 || 123 <= c as int <= 126
  }

  predicate AllWhitespace(s: string) {
    forall i :: 0 <= i < |s| ==> IsWhitespace(s[i])
  }

  predicate NoWhitespace(s: string) {
    forall i :: 0 <= i < |s| ==> !IsWhitespace(s[i])
  }

  /** The length of the leading run of whitespace. */
  function LeadingWhitespace(s: string): (n: nat)
    ensures n <= |s| && AllWhitespace(s[..n])
    ensures n < |s| ==> !IsWhitespace(s[n])
  {
    if |s| == 0 || !IsWhitespace(s[0]) then 0
    else
      var m := LeadingWhitespace(s[1..]);
      assert s[..1 + m] == [s[0]] + s[1..][..m];
      1 + m
  }

  /** Where the trailing run of whitespace starts. */
  function TrailingWhitespace(s: string): (n: nat)
    ensures n <= |s| && AllWhitespace(s[n..])
    ensures n > 0 ==> !IsWhitespace(s[n - 1])
  {
    if |s| == 0 || !IsWhitespace(s[|s| - 1]) then |s|
    else
      var m := TrailingWhitespace(s[..|s| - 1]);
      assert s[m..] == s[..|s| - 1][m..] + [s[|s| - 1]];
      m
  }

  /** Python's `s.strip()`: `s` without its leading and trailing whitespace. */
  function Strip(s: string): (r: string)
    ensures exists i, j :: 0 <= i <= j <= |s| && r == s[i..j] && AllWhitespace(s[..i]) && AllWhitespace(s[j..])
    ensures |r| > 0 ==> !IsWhitespace(r[0]) && !IsWhitespace(r[|r| - 1])
  {
    var i := LeadingWhitespace(s);
    var j := TrailingWhitespace(s);
    if i == |s| then
      assert s[i..] == [];
      s[i..i]
    else
      s[i..j]
  }

  /** A string that neither starts nor ends with whitespace strips to itself. */
  lemma StripTrimmed(s: string)
    requires |s| > 0 ==> !IsWhitespace(s[0]) && !IsWhitespace(s[|s| - 1])
    ensures Strip(s) == s
  {
    if |s| > 0 {
      assert LeadingWhitespace(s) == 0;
      assert TrailingWhitespace(s) == |s|;
    }
  }

  /** The length of the leading run of non-whitespace. */
  function WordLength(s: string): (n: nat)
    ensures n <= |s| && NoWhitespace(s[..n])
    ensures n < |s| ==> IsWhitespace(s[n])
  {
    if |s| == 0 || IsWhitespace(s[0]) then 0
    else
      var m := WordLength(s[1..]);
      assert s[..1 + m] == [s[0]] + s[1..][..m];
      1 + m
  }

  /** Python's `s.split()` with no separator: the maximal runs of
      non-whitespace, in order. */
  function Split(s: string): (words: seq<string>)
    ensures forall k :: 0 <= k < |words| ==> |words[k]| > 0 && NoWhitespace(words[k])
    decreases |s|
  {
    var i := LeadingWhitespace(s);
    if i == |s| then []
    else
      var t := s[i..];
      var n := WordLength(t);
      [t[..n]] + Split(t[n..])
  }

  /** Words glued back together with single spaces. */
  function JoinWords(words: seq<string>): string {
    if |words| == 0 then ""
    else if |words| == 1 then words[0]
    else words[0] + " " + JoinWords(words[1..])
  }

  lemma SplitDropsLeadingSpace(c: char, s: string)
    requires IsWhitespace(c)
    ensures Split([c] + s) == Split(s)
  {
    var t := [c] + s;
    assert t[1..] == s;
    assert LeadingWhitespace(t) == 1 + LeadingWhitespace(s);
    assert t[LeadingWhitespace(t)..] == s[LeadingWhitespace(s)..];
  }

  /** Leading whitespace of any length is ignored. */
  lemma {:induction false} SplitDropsBlank(g: string, s: string)
    requires AllWhitespace(g)
    ensures Split(g + s) == Split(s)
    decreases |g|
  {
    if |g| > 0 {
      assert g + s == [g[0]] + (g[1..] + s);
      SplitDropsLeadingSpace(g[0], g[1..] + s);
      SplitDropsBlank(g[1..], s);
    } else {
      assert g + s == s;
    }
  }

  lemma {:induction false} WordLengthOfWord(w: string, rest: string)
    requires NoWhitespace(w)
    requires |rest| == 0 || IsWhitespace(rest[0])
    ensures WordLength(w + rest) == |w|
  {
    if |w| > 0 {
      assert (w + rest)[1..] == w[1..] + rest;
      WordLengthOfWord(w[1..], rest);
    } else {
      assert w + rest == rest;
    }
  }

  lemma SplitLeadingWord(w: string, rest: string)
    requires |w| > 0 && NoWhitespace(w)
    requires |rest| == 0 || IsWhitespace(rest[0])
    ensures Split(w + rest) == [w] + Split(rest)
  {
    var s := w + rest;
    assert LeadingWhitespace(s) == 0;
    assert s[0..] == s;
    WordLengthOfWord(w, rest);
    assert s[..|w|] == w;
    assert s[|w|..] == rest;
  }

  lemma SplitEmpty()
    ensures Split("") == []
  {
    assert LeadingWhitespace("") == 0;
  }

  lemma SplitOneWord(w: string)
    requires |w| > 0 && NoWhitespace(w)
    ensures Split(w) == [w]
  {
    SplitLeadingWord(w, "");
    assert w + "" == w;
    SplitEmpty();
  }

  /** Splitting words joined by single spaces gives the words back. */
  lemma {:induction false} SplitJoinWords(words: seq<string>)
    requires forall k :: 0 <= k < |words| ==> |words[k]| > 0 && NoWhitespace(words[k])
    ensures Split(JoinWords(words)) == words
  {
    if |words| == 0 {
      SplitEmpty();
    } else if |words| == 1 {
      SplitOneWord(words[0]);
    } else {
      var rest := JoinWords(words[1..]);
      assert JoinWords(words) == words[0] + (" " + rest);
      SplitLeadingWord(words[0], " " + rest);
      SplitDropsLeadingSpace(' ', rest);
      assert " " + rest == [' '] + rest;
      SplitJoinWords(words[1..]);
      assert [words[0]] + words[1..] == words;
    }
  }

  /** `gaps[0] + words[0] + gaps[1] + ... + words[n-1] + gaps[n]`. */
  function Interleave(gaps: seq<string>, words: seq<string>): string
    requires |gaps| == |words| + 1
    decreases |words|
  {
    if |words| == 0 then gaps[0]
    else gaps[0] + words[0] + Interleave(gaps[1..], words[1..])
  }

  /** `words` separated by whitespace runs in `gaps`: the inner runs are
      non-empty, the outer two may be empty, and no word is empty or holds
      whitespace. */
  predicate Layout(gaps: seq<string>, words: seq<string>) {
    && |gaps| == |words| + 1
    && (forall k :: 0 <= k < |gaps| ==> AllWhitespace(gaps[k]))
    && (forall k :: 0 < k < |words| ==> |gaps[k]| > 0)
    && (forall k :: 0 <= k < |words| ==> |words[k]| > 0 && NoWhitespace(words[k]))
  }

  lemma LayoutTail(gaps: seq<string>, words: seq<string>)
    requires |words| > 0 && Layout(gaps, words)
    ensures Layout(gaps[1..], words[1..])
  {
    assert forall k :: 0 <= k < |gaps[1..]| ==> gaps[1..][k] == gaps[k + 1];
    assert forall k :: 0 <= k < |words[1..]| ==> words[1..][k] == words[k + 1];
  }

  /** What follows a word in a layout is empty or starts with whitespace. */
  lemma {:induction false} LayoutAfterWord(gaps: seq<string>, words: seq<string>)
    requires |words| > 0 && Layout(gaps, words)
    ensures var rest := Interleave(gaps[1..], words[1..]);
            |rest| == 0 || IsWhitespace(rest[0])
  {
    if |words| > 1 {
      assert |gaps[1]| > 0;
      var tail := gaps[1..];
      assert Interleave(tail, words[1..]) == tail[0] + (words[1] + Interleave(tail[1..], words[2..]));
    }
  }

  /** `split()` gives back exactly the words of any layout: whitespace runs
      of any length and kind separate words, and whitespace at either end
      is dropped. */
  lemma {:induction false} SplitInterleave(gaps: seq<string>, words: seq<string>)
    requires Layout(gaps, words)
    ensures Split(Interleave(gaps, words)) == words
    decreases |words|
  {
    if |words| == 0 {
      SplitDropsBlank(gaps[0], "");
      assert gaps[0] + "" == gaps[0];
      SplitEmpty();
    } else {
      LayoutTail(gaps, words);
      SplitInterleave(gaps[1..], words[1..]);
      SplitInterleaveStep(gaps, words);
    }
  }

  lemma SplitInterleaveStep(gaps: seq<string>, words: seq<string>)
    requires |words| > 0 && Layout(gaps, words)
    requires Split(Interleave(gaps[1..], words[1..])) == words[1..]
    ensures Split(Interleave(gaps, words)) == words
  {
    var rest := Interleave(gaps[1..], words[1..]);
    Associative(gaps[0], words[0], rest);
    SplitDropsBlank(gaps[0], words[0] + rest);
    LayoutAfterWord(gaps, words);
    SplitLeadingWord(words[0], rest);
    assert [words[0]] + words[1..] == words;
  }

  lemma Associative(a: string, b: string, c: string)
    ensures a + b + c == a + (b + c)
  {
  }

  /** A whitespace run and a word in front of a layout make a layout. */
  lemma LayoutCons(g: string, w: string, gaps: seq<string>, words: seq<string>)
    requires AllWhitespace(g) && |w| > 0 && NoWhitespace(w)
    requires Layout(gaps, words) && (|words| > 0 ==> |gaps[0]| > 0)
    ensures Layout([g] + gaps, [w] + words)
    ensures Interleave([g] + gaps, [w] + words) == g + w + Interleave(gaps, words)
  {
    var gs := [g] + gaps;
    var ws := [w] + words;
    assert gs[1..] == gaps && ws[1..] == words;
    assert forall k :: 0 < k < |gs| ==> gs[k] == gaps[k - 1];
    assert forall k :: 0 < k < |ws| ==> ws[k] == words[k - 1];
  }

  /** Every string is a layout of its `split()`. */
  lemma {:induction false} SplitLayout(s: string) returns (gaps: seq<string>)
    ensures Layout(gaps, Split(s)) && Interleave(gaps, Split(s)) == s
    ensures gaps[0] == s[..LeadingWhitespace(s)]
    decreases |s|, 1
  {
    var i := LeadingWhitespace(s);
    if i == |s| {
      gaps := [s];
      assert s[..i] == s;
    } else {
      gaps := SplitLayoutStep(s);
    }
  }

  /** The layout of a string with a first word: its leading whitespace,
      then the word, then the layout of what follows the word. */
  lemma {:induction false} SplitLayoutStep(s: string) returns (gaps: seq<string>)
    requires LeadingWhitespace(s) < |s|
    ensures Layout(gaps, Split(s)) && Interleave(gaps, Split(s)) == s
    ensures gaps[0] == s[..LeadingWhitespace(s)]
    decreases |s|, 0
  {
    var i := LeadingWhitespace(s);
    var t := s[i..];
    var n := WordLength(t);
    var rest := t[n..];
    var more := SplitLayout(rest);
    assert |rest| > 0 ==> IsWhitespace(rest[0]) && LeadingWhitespace(rest) > 0;
    LayoutCons(s[..i], t[..n], more, Split(rest));
    gaps := [s[..i]] + more;
    SliceThree(s, i, n);
  }

  lemma SliceThree(s: string, i: nat, n: nat)
    requires i <= |s| && n <= |s| - i
    ensures s == s[..i] + s[i..][..n] + s[i..][n..]
  {
    assert s[i..] == s[i..][..n] + s[i..][n..];
    assert s == s[..i] + s[i..];
  }

  // ---------------------------------------------------------------------
  // Ordering and sorting: Python compares strings character by character,
  // and a proper prefix sorts first.

  predicate StrLe(a: string, b: string) {
    if |a| == 0 then true
    else if |b| == 0 then false
    else if a[0] != b[0] then a[0] < b[0]
    else StrLe(a[1..], b[1..])
  }

  lemma {:induction false} StrLeTotal(a: string, b: string)
    ensures StrLe(a, b) || StrLe(b, a)
  {
    if |a| > 0 && |b| > 0 && a[0] == b[0] {
      StrLeTotal(a[1..], b[1..]);
    }
  }

  predicate Sorted(s: seq<string>) {
    forall i :: 0 < i < |s| ==> StrLe(s[i - 1], s[i])
  }

  function Insert(x: string, s: seq<string>): (r: seq<string>)
    requires Sorted(s)
    ensures Sorted(r)
    ensures multiset(r) == multiset(s) + multiset{x}
    ensures r[0] == x || (|s| > 0 && r[0] == s[0])
  {
    if |s| == 0 then [x]
    else if StrLe(x, s[0]) then [x] + s
    else
      StrLeTotal(x, s[0]);
      var tail := Insert(x, s[1..]);
      assert s == [s[0]] + s[1..];
      [s[0]] + tail
  }

  /** Python's `list.sort()` on a list of strings: an ordered permutation. */
  function Sort(s: seq<string>): (r: seq<string>)
    ensures Sorted(r)
    ensures multiset(r) == multiset(s)
  {
    if |s| == 0 then []
    else
      assert s == [s[0]] + s[1..];
      Insert(s[0], Sort(s[1..]))
  }
}

=== FILE: wrappers.dfy ===
/** Small failure-carrying datatypes shared by the whole model. */
module Wrappers {

  /** A value that may be absent; Python's `None` is `None` here too. */
  datatype Option<+T> = None | Some(value: T)

  /** The outcome of one blocking HTTP GET as the code sees it: either the
      connection failed (`requests.exceptions.ConnectionError`) or a status
      code arrived together with the already-parsed body. */
  datatype Response<+T> = ConnectionError | Http(status: int, body: T) {

    /** True when the code goes on to read the body (status 200). */
    predicate IsOk() {
      Http? && status == 200
    }
  }
}
